=== FILE: README.md ===
# Family-office tax planning arithmetic, modelled in Dafny

This project models the computational core of a two-page tax-planning
application, written in Dafny 4.11 over exact `real` arithmetic.

- **Quick-deduction progressive tax** (`prog_tax_quick`, `tax_progressive`).
  The module `Brackets` models it once, together with the three shipped
  bracket tables. The open-ended last bracket is a `Bound.Infinite`.
  A table is *well-formed* when its bounds ascend, its last bracket is
  open-ended, its rates are non-negative, and its quick deductions make
  neighbouring lines meet at each boundary. The rows below that say
  "well-formed" mean all four conditions.
- **Individual dividend tax** (`indiv_div_tax`) and the shareholder-kind
  dispatch, in `DividendTax`. Two modes: separate taxation at 28%, or
  integration into the progressive income tax with a capped 8.5% credit.
- **Multi-year dividend policy simulator** (`simulate_dividend_policy`), in
  `DividendPolicy`. The yearly ledger `(capital, retained earnings, legal
  reserve, capital surplus)` is threaded through a fold over years
  `1..years`. Each year applies, in order:
  - corporate tax with its minimum-tax floor;
  - the capped legal-reserve accrual;
  - the phase-1/phase-2 cash/stock/retention split;
  - the surtax on retained earnings;
  - the shareholder's tax.

  The loop is a method, `RunYears`, proved equal to the fold. The totals are
  proved to be column sums of the table.
- **Estate and gift scenario comparator** (`estate_and_gift_simulator`), in
  `EstateGift`. It has four scenarios:
  - A: keep everything until death;
  - B: annual gifts;
  - C: insurance compensation;
  - D: an illustrative trust.

  Heir shares are normalised. The heir-allocation table has four blocks, one
  per scenario.
- **Estate tax calculator of the second page**, in `EstateTax`:
  - the tax constants and household deductions;
  - the marginal-slice evaluator over the 10/15/20% bands, rounded half to even;
  - the insurance and gift what-ifs;
  - the five-strategy case comparison and the page's suggested case inputs.

`Numeric` holds the real-valued helpers:
- `max`/`min`;
- `round(x, 0)`, as round half to even;
- `int(x)`, as truncation toward zero;
- `math.ceil`.

`Wrappers` holds `Option`.

The source's error paths are modelled as follows:
- An empty bracket table makes the source fail on `brackets[-1]`, so that is
  a precondition (`|t| > 0`, `PlanOk`).
- `simulate_dividend_policy` with `years < 1` fails when it reads a column
  of the empty DataFrame. That case is `None`.

Two consequences of the code are worth stating on their own:
- `calculate_estate_tax` returns the deductions without the 1,333
  exemption. For 5,000 of assets and no family it returns 138.
- At zero years of gifting, scenario B equals scenario A only when
  `equity + assets − liabilities ≥ 0`. B clamps the estate at zero and A
  does not.

## Model

| member | source | states |
|---|---|---|
| `Brackets.QuickTax` | app.py:153-157 | The evaluated tax is never negative and never below the line value of the bracket used. Its exact value is fixed by `QuickTaxUsesFirstMatch` and `QuickTaxFallsBackOnLast`. |
| `Brackets.QuickTaxUsesFirstMatch` | app.py:154-156 | When bracket i is the first whose upper bound is at least the amount, the tax is `max(0, amount*rate_i - quick_i)`. |
| `Brackets.QuickTaxFallsBackOnLast` | app.py:157 | When no bracket's upper bound reaches the amount, the last bracket's line is used, floored at zero. |
| `Brackets.WellFormedAlwaysMatches` | app.py:148 | On a well-formed table (ascending finite bounds, an open-ended last bracket, non-negative rates, and quick deductions that make neighbouring lines meet at each boundary), every amount has a first matching bracket. |
| `Brackets.RawTaxMonotone` | app.py:153-157 | On a well-formed table (ascending finite bounds, an open-ended last bracket, non-negative rates, and quick deductions that make neighbouring lines meet at each boundary), the unfloored line value never decreases as the amount grows (induction over the brackets). |
| `Brackets.QuickTaxMonotone` | app.py:223-227 | `tax_progressive` (and its twin `prog_tax_quick`) is non-decreasing in the amount on a well-formed table. |
| `Brackets.QuickTaxFloorInactive` | app.py:153-157 | On a well-formed table whose first bracket contains zero and has no quick deduction, the floor at zero never changes a non-negative amount's tax, and zero is taxed zero. |
| `Brackets.ShippedTablesWellFormed` | app.py:142-149 | `DEFAULT_BRACKETS` and the estate and gift tables (lines 234 and 236) are well-formed (ascending, open-ended, non-negative rates, each quick deduction making neighbouring lines meet at the boundary), and each starts with no quick deduction. |
| `Brackets.DefaultBracketsExamples` | app.py:142-149 | 540,000 is taxed 27,000 at 5%; 1,000,000 is taxed 82,200 on the 12% line. |
| `DividendTax.ParseMode` | app.py:161 | Only the string `"split28"` selects separate taxation; every other mode string integrates. |
| `DividendTax.ParseKind` | app.py:197-202 | Exactly the two resident strings select their branches; every other string is treated as nonresident. |
| `DividendTax.IncrementalTax` | app.py:162-164 | The incremental tax is non-negative and at least the bracket-tax difference caused by stacking the dividend on the other income. |
| `DividendTax.Credit` | app.py:165 | The credit is the smaller of 8.5% of the dividend and 80,000. |
| `DividendTax.IndivDivTax` | app.py:159-166 | The dividend tax is non-negative, zero for a non-positive amount, and in integrated mode at most the incremental bracket tax. |
| `DividendTax.IndivDivTaxCases` | app.py:159-166 | All three outcomes: 0 for amount ≤ 0; `amount*0.28` in split mode; otherwise `max(0, incr − min(0.085·amount, 80000))`, between 0 and `incr`. |
| `DividendTax.IntegratedTaxWithinDifference` | app.py:162-166 | On a well-formed table the floor in `incr` never bites, and the integrated tax is at most the bracket-tax difference. |
| `DividendTax.Split28Example` | app.py:161 | A 1,000,000 dividend taxed separately costs 280,000. |
| `DividendTax.ShareholderTax` | app.py:197-202 | A corporate resident pays nothing. A resident individual pays a non-negative amount, zero on a non-positive payout. A nonresident pays a non-negative amount on a non-negative payout and rate. |
| `DividendTax.ShareholderTaxByKind` | app.py:197-202 | The three branches: 0 for a corporate resident, `paid × withholding` for a nonresident, `indiv_div_tax` on the default table for a resident individual. |
| `DividendTax.ShareholderTaxNonNegative` | app.py:197-202 | For a non-negative payout and withholding rate, no kind of shareholder pays a negative tax. |
| `DividendPolicy.CorporateTaxIsHigherRate` | app.py:179-180 | Corporate tax is at least both the ordinary and the minimum tax, and equals one of them. After-tax profit is non-negative and at least pre-tax profit less corporate tax. |
| `DividendPolicy.ReserveAccrualBounds` | app.py:181-185 | The accrual is 0 when switched off. When switched on, it never lifts a reserve within `cap × capital` above that cap, and for non-negative after-tax profit and rate it lies between 0 and `rate × after_tax`. |
| `DividendPolicy.AccrualWithinProfit` | app.py:181-186 | With an accrual rate in [0, 1] the accrual never exceeds after-tax profit, so the distributable base is non-negative. |
| `DividendPolicy.SplitStockNonNegative` | app.py:186-189 | With non-negative opening capital, cap and stock percentages and an accrual rate in [0, 1], a stock dividend is never negative. |
| `DividendPolicy.RowShowsSplit` | app.py:204-209 | Each row records the year, the year's split, and the balances carried out of the year, with equity as their sum. |
| `DividendPolicy.StepSound` | app.py:177-195 | From a ledger with no surplus, non-negative retained earnings and (when switched off) a zero reserve, one year keeps all three. |
| `DividendPolicy.StepKeepsCap` | app.py:182-195 | With non-negative opening capital, cap and stock percentages and an accrual rate in [0, 1], from a ledger with no surplus, capital at least its opening value and the reserve within `cap × capital`, one year keeps all three. |
| `DividendPolicy.TableRow` | app.py:178-209 | Row i of the table is year i+1 computed from the balances after i years. |
| `DividendPolicy.TableNumbered` | app.py:178-205 | The table has exactly `years` rows, numbered 1..years. |
| `DividendPolicy.LedgerInvariants` | app.py:177-195 | After any number of years the surplus is 0, so the conversion branch never fires. Retained earnings are non-negative. A switched-off reserve stays 0. |
| `DividendPolicy.ReserveWithinCap` | app.py:182-195 | With non-negative capital, cap and stock percentages and an accrual rate in [0, 1]: capital never falls below its opening value, the reserve stays within `cap × capital`, and every row shows a reserve within its cap. |
| `DividendPolicy.LedgerIsColumnSums` | app.py:191-193 | After n years: capital = opening capital + Σ stock dividends; retained earnings = Σ retentions; reserve = Σ accruals. |
| `DividendPolicy.LastRowIsColumnSums` | app.py:215-217 | For at least one year, the final balances read off the last row are the opening capital plus all stock dividends, the sum of all retentions and the sum of all accruals. |
| `DividendPolicy.RetainedNonDecreasing` | app.py:190-192 | Retained earnings never shrink from one year to the next. |
| `DividendPolicy.TotalIsCompanyPlusShareholder` | app.py:203-214 | Over the whole table, total tax equals company tax plus shareholder tax. |
| `DividendPolicy.SimulateDividendPolicy` | app.py:168-220 | `None` exactly when years < 1. Otherwise: the rows are the fold, one per year, numbered 1..years; the totals are the column sums; the final fields are the last row's; final capital, retained earnings and reserve are the opening capital plus Σ stock, Σ keep and Σ accrual. |
| `DividendPolicy.RunYears` | app.py:178-214 | The loop's rows are the fold over years 1..years, and its three running sums are the column sums of those rows. |
| `DividendPolicy.RowOfTaxes` | app.py:196-203 | In each row, company tax is corporate tax plus the retained-earnings surtax, and total tax adds the shareholder's tax. |
| `DividendPolicy.SplitFollowsPhase` | app.py:187-189 | Year y pays cash and stock by the phase-1 percentages when y ≤ phase1_years, and by the phase-2 percentages otherwise. |
| `DividendPolicy.RowOfShareholderTax` | app.py:196-202 | A row's shareholder tax is the tax of the row's kind of shareholder on that year's cash plus stock dividend. |
| `DividendPolicy.YearConserves` | app.py:186-190 | With non-negative percentages summing to at most 1 and an accrual rate in [0, 1], after-tax profit = accrual + cash + stock + retention. |
| `DividendPolicy.DefaultYearOneExample` | app.py:168-180 | With the defaults, corporate tax is 4,000,000 and after-tax profit 16,000,000. |
| `DividendPolicy.ReserveCapNeedsRateAtMostOne` | app.py:182-193 | At accrual rate 2 (with a full stock payout) one year leaves the reserve above `cap × capital`, so the cap property needs rate ≤ 1. |
| `EstateGift.Divisor` | app.py:246 | The share divisor is never zero: the share total, or 1 when the total is 0. |
| `EstateGift.DivideShares` | app.py:247 | Normalising keeps every heir's name and position and divides each share by the divisor. |
| `EstateGift.SumOfDivided` | app.py:246-247 | Dividing each share by d divides the share total by d (induction over the heirs). |
| `EstateGift.NormalizeHeirsShares` | app.py:244-247 | A missing or empty heir list becomes A and B at 0.5 each. Otherwise names and order are kept. Shares sum to 1 unless the given shares sum to 0, in which case they are unchanged. |
| `EstateGift.GiftYears` | app.py:255 | The gifting loop runs `int(years_of_gifting)` times, and not at all when that is not positive. |
| `EstateGift.GiftingLoop` | app.py:254-258 | The loop's gift tax total is years × one year's gift tax, and its gifted total is years × the annual gift. |
| `EstateGift.InsuranceScenarioMatchesRetain` | app.py:249-267 | Scenario C always has A's gross estate, estate tax, gift tax and net amount. |
| `EstateGift.NoTrustMatchesGifting` | app.py:269-275 | With the trust toggle off, scenario D has B's gross, taxes and net. |
| `EstateGift.TrustMattersOnlyForRetainedInsurance` | app.py:269-275 | With insurance paid to the heirs, D equals B whatever the toggle. With the toggle on and insurance not paid to the heirs, D's gross leaves out the insurance sum. |
| `EstateGift.NoGiftingMatchesRetain` | app.py:249-262 | With no year of gifting and a non-negative net worth, B has A's gross, taxes and net. |
| `EstateGift.GiftingNeverRaisesEstateTax` | app.py:249-261 | On a well-formed estate table, with a non-negative net worth, a non-negative annual gift never gives B a higher estate tax than A. |
| `EstateGift.AllocationsBlock` | app.py:283-286 | Block k of the allocation table (rows k·N..(k+1)·N) is exactly scenario k's rows. |
| `EstateGift.AllocateAll` | app.py:283-286 | The nested allocation loop produces the allocation table: scenario by scenario, heir by heir. |
| `EstateGift.LoopTotalsGiveScenarios` | app.py:254-275 | Scenarios B and D built from the gifting loop's two totals are the summary's B and D. |
| `EstateGift.EstateAndGiftSimulator` | app.py:229-287 | B and D are built from the gifting loop's totals. The summary is A, B, C, D, and B's gift tax is years × one year's gift tax. The allocation table has 4·N rows, built from the summary and the normalised heirs. |
| `EstateGift.AllocationRow` | app.py:283-286 | In scenario k's block, heir j's row carries the scenario, the heir's name and share, and net × share. |
| `EstateGift.AllocationSumsToNet` | app.py:283-286 | Unless the given shares sum to zero, each scenario's allocations add up to that scenario's net amount. |
| `EstateGift.DefaultRetainExample` | app.py:229-252 | With the defaults, scenario A pays 99,834,000 of estate tax and leaves 450,166,000. |
| `EstateTax.DeductionsMonotone` | estate_tax_app.py:42-54 | With non-negative constants, a spouse or more dependants of any kind never lower the deductions. |
| `EstateTax.DefaultDeductionsAtLeastFuneral` | estate_tax_app.py:14-22 | With the default constants and no negative count, the deductions are at least 138, and exactly 138 for no family. The 1,333 exemption is not part of them. |
| `EstateTax.DefaultMarginalIsPiecewise` | estate_tax_app.py:64-70 | On the default bands the marginal loop is: 10% up to 5,621; 562.1 + 15% of the excess up to 11,242; 1,405.25 + 20% of the excess beyond. |
| `EstateTax.PiecewiseMonotone` | estate_tax_app.py:24-30 | The default schedule is non-negative and non-decreasing. |
| `EstateTax.AssessmentCases` | estate_tax_app.py:57-71 | Below 1,333 + deductions, taxable and tax are 0. Otherwise taxable = assets − 1,333 − deductions ≥ 0, and the tax due is a whole number within ½ of the schedule's value. |
| `EstateTax.AssessWithMonotone` | estate_tax_app.py:60-71 | The tax due is a non-negative whole number, non-decreasing in assets and non-increasing in deductions. |
| `EstateTax.TaxDueMonotoneInAssets` | estate_tax_app.py:57-71 | More assets never lower the tax due. |
| `EstateTax.LargerFamilyNeverRaisesTax` | estate_tax_app.py:42-71 | Adding a spouse or any dependant never raises the tax due. |
| `EstateTax.SmallEstateExample` | estate_tax_app.py:57-71 | 5,000 of assets with no family gives taxable 3,529, tax 353 (352.9 rounded) and deductions 138. |
| `EstateTax.CalculateEstateTaxLoop` | estate_tax_app.py:57-71 | The calculator with its band loop returns the same assessment as the marginal fold. |
| `EstateTax.SimulateInsurance` | estate_tax_app.py:83-103 | The claim is `round(premium × premium_ratio)`. The no-plan net is assets less tax, and both plan effects are differences against it. |
| `EstateTax.InsurancePricesThreeEstates` | estate_tax_app.py:87-103 | The three taxes are the calculator's tax due on the assets, on the assets less the premium, and on the assets less the premium plus the claim. The untaxed plan's net is the second estate less its tax plus the claim; the taxed plan's net is the third estate less its tax; both are rounded. |
| `EstateTax.PremiumNeverRaisesTax` | estate_tax_app.py:88-95 | Paying a non-negative premium out of the estate never raises the estate tax. |
| `EstateTax.NoPremiumNoEffect` | estate_tax_app.py:87-103 | With no premium and whole-number assets, both insurance effects are 0. |
| `EstateTax.SimulateGift` | estate_tax_app.py:122-137 | Total gift = 244 × years. The simulated estate is `max(assets − gifts, 0)`. The effect is the planned net less the unplanned net. |
| `EstateTax.NoGiftNoEffect` | estate_tax_app.py:126-137 | Zero years of gifting gives effect 0 on whole-number non-negative assets. Truncated for display, the effect is 0 on any non-negative assets. |
| `EstateTax.GiftFits` | estate_tax_app.py:126-133 | When the gifts fit in the estate, the estate priced is assets less gifts and the gifts return in the net. |
| `EstateTax.GiftEffectIsTaxSaved` | estate_tax_app.py:126-137 | For a non-negative number of years whose gifts fit in a whole-number estate, the effect equals the original tax less the simulated tax, and it is non-negative. |
| `EstateTax.GiftEffectNonNegative` | estate_tax_app.py:126-137 | For any non-negative number of years, whole-number assets and no negative dependant count, the gift effect is non-negative, also when the gifts exceed the estate. |
| `EstateTax.ShowCases` | estate_tax_app.py:420-448 | The displayed table truncates tax and net toward zero, and each benefit is the truncated net less the truncated no-plan net. |
| `EstateTax.CaseComparison` | estate_tax_app.py:387-448 | The no-plan row is the baseline with benefit 0. For a non-negative gift, gifting early raises the family's net by exactly the estate tax saved, never a negative amount. |
| `EstateTax.SuggestCase` | estate_tax_app.py:343-352 | The premium is the tax rounded up to a multiple of 10, capped at the assets: it is below the assets exactly when that rounded tax is, and equals the assets only when the rounded tax reaches them. The claim is 1.5 × the premium, truncated. The gift is 244 exactly when the assets less the premium cover it, else 0. |
| `EstateTax.SuggestCaseExample` | estate_tax_app.py:343-352 | A tax of 353 on 5,000 of assets suggests a premium of 360, a claim of 540 and a gift of 244. |
| `Numeric.RoundHalfEven` | estate_tax_app.py:71 | `round(x, 0)` gives a whole number within ½ of x; on a tie it gives the even one. |

## Left out

- The Streamlit pages are not modelled: rendering, CSS, page configuration, tabs, charts, font and logo reads, the login and paywall, and the session clock. They are presentation and I/O.
- The dynamic loading of the dividend module, the `set_page_config` patch and the `st.cache_data` memoisation are not modelled. None of them changes a result.
- The inline single-year tab of the dividend page is not modelled. It repeats year 1 of the simulator with the reserve starting at zero.
- DataFrames are sequences of records. Column labels are datatype constructors.
- The `期末保留盈餅` lookup on the totals is not modelled. No row has that column, so it always falls back to the final retained earnings, which is what the model reports.
- Floating point is not modelled: money and rates are exact reals. `round` is round half to even on exact reals, with no claim of bit-exact agreement with binary floats.
- The `int()` truncation of the two what-if simulators' result dictionaries is display-only and not modelled. It is modelled for the case table, where the benefit column is computed from the truncated values.
- The input widgets' bounds are not enforced by the calculator, so they are not modelled. Examples: at most two parents; disabled people at most spouse + children + parents; premium at most the assets; gift at most the assets less the premium. Where a property needs a whole-number or non-negative input, the widgets supply one, and the lemma states it as a precondition.
- Counts and years are mathematical integers. `years_of_gifting` is a real truncated by `int()`.
- `DividendPolicy.ReserveWithinCap` also requires `legal_reserve_rate ≤ 1`. Without it the cap fails: `ReserveCapNeedsRateAtMostOne` exhibits a counterexample.
- `EstateGift.NoGiftingMatchesRetain` requires a non-negative net worth. Scenario B clamps the estate at zero and A does not.
- `EstateTax.NoGiftNoEffect` requires non-negative assets. For negative assets the simulated estate is clamped to zero, and the effect is the negated assets.
- `EstateTax.NoPremiumNoEffect`, `EstateTax.GiftEffectIsTaxSaved` and `EstateTax.GiftEffectNonNegative` hold for whole-number assets. On other assets the rounding of the net can differ from the exact value by up to ½.
- `EstateTax.TaxDueMonotoneInAssets`, `EstateTax.LargerFamilyNeverRaisesTax` and the other tax-due lemmas are stated for the default constants and bands.
- `EstateTax.CaseComparison` relates only the early-gift row to the baseline. The insurance rows are computed by `CaseTable` with no further property, because their outcome depends on the claim the user types in.

=== FILE: brackets.dfy ===
/**
 The quick-deduction progressive tax evaluator (`prog_tax_quick`, and its
 textual twin `tax_progressive`) and the three bracket tables the program
 ships. A table is a list of `(upper, rate, quick)` triples; the last upper
 bound is Python's `float("inf")`, written here as `Infinite`.
 */
module Brackets {
  import opened Numeric

  /** An upper bound of a bracket: a finite amount or the open-ended catch-all. */
  datatype Bound = Finite(value: real) | Infinite

  /** `x <= upper`, with every real below infinity. */
  predicate Within(x: real, b: Bound) {
    b.Infinite? || x <= b.value
  }

  /** One bracket: marginal `rate` up to `upper`, with quick deduction `quick`. */
  datatype Bracket = Bracket(upper: Bound, rate: real, quick: real)

  type Table = seq<Bracket>

  /** The straight line a bracket taxes with: `amount * rate - quick`. */
  function Line(b: Bracket, x: real): real {
    x * b.rate - b.quick
  }

  /**
   The line of the first bracket whose upper bound is at least `x`; when no
   bracket matches, the last bracket's line (the source's fallback after the
   loop). An empty table makes the source raise on `brackets[-1]`.
   */
  function RawTax(x: real, t: Table): real
    requires |t| > 0
    decreases |t|
  {
    if Within(x, t[0].upper) || |t| == 1 then Line(t[0], x) else RawTax(x, t[1..])
  }

  /** `prog_tax_quick(x, t)` and `tax_progressive(x, t)`: the line value floored at zero. */
  function QuickTax(x: real, t: Table): (r: real)
    requires |t| > 0
    ensures r >= 0.0
    ensures r >= RawTax(x, t)
  {
    Max(0.0, RawTax(x, t))
  }

  /** Bracket `i` is the first whose upper bound is at least `x`. */
  predicate FirstMatch(x: real, t: Table, i: int) {
    && 0 <= i < |t|
    && Within(x, t[i].upper)
    && forall j :: 0 <= j < i ==> !Within(x, t[j].upper)
  }

  /** The evaluator taxes `x` on the line of the first matching bracket. */
  lemma {:induction false} QuickTaxUsesFirstMatch(x: real, t: Table, i: int)
    requires FirstMatch(x, t, i)
    ensures QuickTax(x, t) == Max(0.0, Line(t[i], x))
    decreases i
  {
    if i > 0 {
      assert !Within(x, t[0].upper);
      assert FirstMatch(x, t[1..], i - 1) by {
        forall j | 0 <= j < i - 1 ensures !Within(x, t[1..][j].upper) {
          assert t[1..][j] == t[j + 1];
        }
      }
      QuickTaxUsesFirstMatch(x, t[1..], i - 1);
    }
  }

  /** When no bracket matches, the evaluator falls back on the last bracket's line. */
  lemma {:induction false} QuickTaxFallsBackOnLast(x: real, t: Table)
    requires |t| > 0
    requires forall j :: 0 <= j < |t| ==> !Within(x, t[j].upper)
    ensures QuickTax(x, t) == Max(0.0, Line(t[|t| - 1], x))
    decreases |t|
  {
    if |t| > 1 {
      assert !Within(x, t[0].upper);
      forall j | 0 <= j < |t[1..]| ensures !Within(x, t[1..][j].upper) {
        assert t[1..][j] == t[j + 1];
      }
      QuickTaxFallsBackOnLast(x, t[1..]);
    }
  }

  /**
   A table built the way the program's tables are: every bracket but the last
   has a finite upper bound below the next one, the last is open-ended, rates
   are non-negative, and the quick deductions make neighbouring lines meet at
   each boundary, so the tax has no jump there.
   */
  predicate WellFormed(t: Table)
    decreases |t|
  {
    && |t| > 0
    && t[0].rate >= 0.0
    && if |t| == 1 then t[0].upper.Infinite?
       else
         && t[0].upper.Finite?
         && t[1].upper != Finite(t[0].upper.value)
         && Within(t[0].upper.value, t[1].upper)
         && Line(t[0], t[0].upper.value) == Line(t[1], t[0].upper.value)
         && WellFormed(t[1..])
  }

  /** Every amount has a matching bracket in a well-formed table. */
  lemma {:induction false} WellFormedAlwaysMatches(x: real, t: Table)
    requires WellFormed(t)
    ensures exists i :: FirstMatch(x, t, i)
    decreases |t|
  {
    if Within(x, t[0].upper) {
      assert FirstMatch(x, t, 0);
    } else {
      WellFormedAlwaysMatches(x, t[1..]);
      var i :| FirstMatch(x, t[1..], i);
      forall j | 0 <= j < i + 1 ensures !Within(x, t[j].upper) {
        if j > 0 { assert t[j] == t[1..][j - 1]; }
      }
      assert FirstMatch(x, t, i + 1);
    }
  }

  /** On a well-formed table the unfloored line value is non-decreasing. */
  lemma {:induction false} RawTaxMonotone(x: real, y: real, t: Table)
    requires WellFormed(t)
    requires x <= y
    ensures RawTax(x, t) <= RawTax(y, t)
    decreases |t|
  {
    if Within(x, t[0].upper) {
      if Within(y, t[0].upper) {
        MulMonotone(x, y, t[0].rate);
      } else {
        var u := t[0].upper.value;
        MulMonotone(x, u, t[0].rate);
        assert RawTax(u, t[1..]) == Line(t[1], u);
        RawTaxMonotone(u, y, t[1..]);
      }
    } else {
      RawTaxMonotone(x, y, t[1..]);
    }
  }

  /** Tax never decreases as the taxable amount grows. */
  lemma QuickTaxMonotone(x: real, y: real, t: Table)
    requires WellFormed(t)
    requires x <= y
    ensures QuickTax(x, t) <= QuickTax(y, t)
  {
    RawTaxMonotone(x, y, t);
  }

  /**
   When the first bracket starts at zero with no deduction, the floor at zero
   never bites for a non-negative amount: the tax is the plain line value.
   */
  lemma QuickTaxFloorInactive(x: real, t: Table)
    requires WellFormed(t)
    requires t[0].quick == 0.0 && Within(0.0, t[0].upper)
    requires 0.0 <= x
    ensures QuickTax(x, t) == RawTax(x, t)
    ensures QuickTax(0.0, t) == 0.0
  {
    RawTaxMonotone(0.0, x, t);
  }

  /** `DEFAULT_BRACKETS`: the individual income tax table. */
  const DefaultBrackets: Table := [
    Bracket(Finite(540000.0), 0.05, 0.0),
    Bracket(Finite(1210000.0), 0.12, 37800.0),
    Bracket(Finite(2420000.0), 0.20, 134600.0),
    Bracket(Finite(4530000.0), 0.30, 376600.0),
    Bracket(Finite(10310000.0), 0.40, 829600.0),
    Bracket(Infinite, 0.45, 1345100.0)
  ]

  /** The estate tax table `estate_and_gift_simulator` uses by default. */
  const EstateBrackets: Table := [
    Bracket(Finite(50000000.0), 0.10, 0.0),
    Bracket(Finite(100000000.0), 0.15, 2500000.0),
    Bracket(Infinite, 0.20, 7500000.0)
  ]

  /** The gift tax table `estate_and_gift_simulator` uses by default. */
  const GiftBrackets: Table := [
    Bracket(Finite(25000000.0), 0.10, 0.0),
    Bracket(Finite(50000000.0), 0.15, 1250000.0),
    Bracket(Infinite, 0.20, 3750000.0)
  ]

  /** The quick deductions of every shipped table make it continuous and ascending. */
  lemma ShippedTablesWellFormed()
    ensures WellFormed(DefaultBrackets) && DefaultBrackets[0].quick == 0.0
    ensures WellFormed(EstateBrackets) && EstateBrackets[0].quick == 0.0
    ensures WellFormed(GiftBrackets) && GiftBrackets[0].quick == 0.0
  {
    var d := DefaultBrackets;
    assert WellFormed(d[5..]);
    assert WellFormed(d[4..]);
    assert WellFormed(d[3..]);
    assert WellFormed(d[2..]);
    assert WellFormed(d[1..]);
    var e := EstateBrackets;
    assert WellFormed(e[2..]);
    assert WellFormed(e[1..]);
    var g := GiftBrackets;
    assert WellFormed(g[2..]);
    assert WellFormed(g[1..]);
  }

  /** Two sample points of the default table: 540,000 at 5%, 1,000,000 on the 12% line. */
  lemma DefaultBracketsExamples()
    ensures QuickTax(540000.0, DefaultBrackets) == 27000.0
    ensures QuickTax(1000000.0, DefaultBrackets) == 82200.0
  {
  }
}

=== FILE: dividend_policy.dfy ===
/**
 `simulate_dividend_policy`: a company's books folded over years 1..n. Each
 year levies corporate tax (with the minimum-tax floor), accrues the legal
 reserve up to a share of capital, splits what is left into cash dividend,
 stock dividend and retained earnings by the phase in force, levies the
 surtax on retained earnings and the shareholder's tax on what was paid out.
 */
module DividendPolicy {
  import opened Numeric
  import opened Wrappers
  import opened DividendTax

  /** Every parameter of `simulate_dividend_policy`. */
  datatype Policy = Policy(
    years: int,
    pretaxProfit: real,
    corpTaxRate: real,
    amtMinRate: real,
    undistributedTaxRate: real,
    initCapital: real,
    legalReserveOn: bool,
    legalReserveRate: real,
    legalReserveCap: real,
    phase1Years: int,
    phase1CashPct: real,
    phase1StockPct: real,
    phase2CashPct: real,
    phase2StockPct: real,
    shareholderKind: ShareholderKind,
    indivMode: IndivMode,
    otherIncome: real,
    nonresidentWithholding: real,
    surplusToCapital: real)

  /** The keyword defaults of `simulate_dividend_policy`. */
  const DefaultPolicy: Policy := Policy(
    30, 20000000.0, 0.20, 0.12, 0.05, 1000000.0, true, 0.10, 0.25,
    10, 0.0, 0.0, 0.0, 0.0, IndividualResident, Split28, 0.0, 0.21, 0.0)

  /** The running balances carried from one year to the next. */
  datatype Ledger = Ledger(capital: real, retained: real, legalReserve: real, capSurplus: real)

  /** One row of the per-year table. */
  datatype YearRow = YearRow(
    year: int,
    corpTax: real,
    afterTax: real,
    toLegal: real,
    cash: real,
    stock: real,
    keep: real,
    undistTax: real,
    shTax: real,
    companyTax: real,
    totalTax: real,
    capital: real,
    retained: real,
    legalReserve: real,
    equity: real)

  /** The totals dictionary: column sums and the last row's balances. */
  datatype Totals = Totals(
    companyTax: real,
    shareholderTax: real,
    totalTax: real,
    finalCapital: real,
    finalRetained: real,
    finalLegalReserve: real,
    finalEquity: real)

  datatype Outcome = Outcome(rows: seq<YearRow>, totals: Totals)

  /** Steps 1 to 5 of a year: corporate tax, after-tax profit, reserve accrual and the payout split. */
  datatype Split = Split(corpTax: real, afterTax: real, toLegal: real, cash: real, stock: real, keep: real)

  function Opening(p: Policy): Ledger {
    Ledger(p.initCapital, 0.0, 0.0, 0.0)
  }

  /** Corporate tax: the ordinary rate or the minimum-tax floor, whichever is higher. */
  function CorporateTax(pretax: real, rate: real, amtRate: real): real {
    Max(pretax * rate, pretax * amtRate)
  }

  /** Profit after corporate tax, never negative. */
  function AfterTax(pretax: real, corpTax: real): real {
    Max(0.0, pretax - corpTax)
  }

  /**
   This year's legal-reserve accrual: `rate` of after-tax profit, but only as
   much as keeps the reserve within `cap` times capital; nothing when the
   accrual is switched off.
   */
  function ReserveAccrual(p: Policy, capital: real, legal: real, afterTax: real): real {
    if p.legalReserveOn then
      Min(afterTax * p.legalReserveRate, Max(0.0, capital * p.legalReserveCap - legal))
    else 0.0
  }

  /**
   Corporate tax is the larger of the ordinary tax and the minimum tax, and
   the after-tax profit is what is left of the pre-tax profit, floored at zero.
   */
  lemma CorporateTaxIsHigherRate(pretax: real, rate: real, amtRate: real)
    ensures var t := CorporateTax(pretax, rate, amtRate);
      && t >= pretax * rate && t >= pretax * amtRate
      && (t == pretax * rate || t == pretax * amtRate)
      && AfterTax(pretax, t) >= 0.0 && AfterTax(pretax, t) >= pretax - t
      && (AfterTax(pretax, t) == 0.0 || AfterTax(pretax, t) == pretax - t)
  {
  }

  /**
   The accrual is zero when switched off; otherwise it never lifts a reserve
   that is within `cap` times capital above that cap, and it is between zero
   and `rate` of a non-negative after-tax profit.
   */
  lemma ReserveAccrualBounds(p: Policy, capital: real, legal: real, afterTax: real)
    ensures !p.legalReserveOn ==> ReserveAccrual(p, capital, legal, afterTax) == 0.0
    ensures p.legalReserveOn && WithinCap(p, legal, capital) ==>
      WithinCap(p, legal + ReserveAccrual(p, capital, legal, afterTax), capital)
    ensures p.legalReserveOn && afterTax >= 0.0 && 0.0 <= p.legalReserveRate ==>
      0.0 <= ReserveAccrual(p, capital, legal, afterTax) <= afterTax * p.legalReserveRate
  {
    if p.legalReserveOn && afterTax >= 0.0 && 0.0 <= p.legalReserveRate {
      MulNonNegative(afterTax, p.legalReserveRate);
    }
  }

  predicate InPhase1(p: Policy, y: int) {
    y <= p.phase1Years
  }

  function CashPct(p: Policy, y: int): real {
    if InPhase1(p, y) then p.phase1CashPct else p.phase2CashPct
  }

  function StockPct(p: Policy, y: int): real {
    if InPhase1(p, y) then p.phase1StockPct else p.phase2StockPct
  }

  /** The year's profit split, from the balances it opens with. */
  function SplitYear(p: Policy, y: int, s: Ledger): Split {
    var corpTax := CorporateTax(p.pretaxProfit, p.corpTaxRate, p.amtMinRate);
    var afterTax := AfterTax(p.pretaxProfit, corpTax);
    var toLegal := ReserveAccrual(p, s.capital, s.legalReserve, afterTax);
    var distBase := afterTax - toLegal;
    var cash := distBase * CashPct(p, y);
    var stock := distBase * StockPct(p, y);
    Split(corpTax, afterTax, toLegal, cash, stock, Max(0.0, distBase - cash - stock))
  }

  /**
   The balances carried out of a year: the stock dividend joins capital, the
   retention joins retained earnings, the accrual joins the reserve, then up
   to `surplusToCapital` of any capital surplus is converted into capital.
   */
  function Carry(p: Policy, s: Ledger, sp: Split): Ledger {
    var capital := s.capital + sp.stock;
    var take := if p.surplusToCapital > 0.0 && s.capSurplus > 0.0
                then Min(s.capSurplus, p.surplusToCapital) else 0.0;
    Ledger(capital + take, s.retained + sp.keep, s.legalReserve + sp.toLegal, s.capSurplus - take)
  }

  function NextLedger(p: Policy, y: int, s: Ledger): Ledger {
    Carry(p, s, SplitYear(p, y, s))
  }

  /** The row the loop appends for year `y`. */
  function RowOf(p: Policy, y: int, s: Ledger): YearRow {
    var sp := SplitYear(p, y, s);
    var n := Carry(p, s, sp);
    var undistTax := sp.keep * p.undistributedTaxRate;
    var shTax := ShareholderTax(p.shareholderKind, sp.cash + sp.stock, p.indivMode, p.otherIncome,
                                p.nonresidentWithholding);
    var companyTax := sp.corpTax + undistTax;
    YearRow(y, sp.corpTax, sp.afterTax, sp.toLegal, sp.cash, sp.stock, sp.keep, undistTax, shTax,
            companyTax, companyTax + shTax, n.capital, n.retained, n.legalReserve,
            n.capital + n.retained + n.legalReserve)
  }

  /** The row repeats the year's split and the balances carried out of the year. */
  lemma RowShowsSplit(p: Policy, y: int, s: Ledger)
    ensures var row, sp, n := RowOf(p, y, s), SplitYear(p, y, s), NextLedger(p, y, s);
      && row.year == y
      && row.corpTax == sp.corpTax && row.afterTax == sp.afterTax && row.toLegal == sp.toLegal
      && row.cash == sp.cash && row.stock == sp.stock && row.keep == sp.keep
      && row.capital == n.capital && row.retained == n.retained && row.legalReserve == n.legalReserve
      && row.equity == n.capital + n.retained + n.legalReserve
  {
  }

  /** The parameter ranges under which the legal reserve stays within its cap. */
  predicate ReserveParamsOk(p: Policy) {
    && p.initCapital >= 0.0
    && p.legalReserveCap >= 0.0
    && 0.0 <= p.legalReserveRate <= 1.0
    && p.phase1StockPct >= 0.0
    && p.phase2StockPct >= 0.0
  }

  /** With an accrual rate in [0, 1] the accrual is between zero and the after-tax profit. */
  lemma AccrualWithinProfit(p: Policy, capital: real, legal: real, afterTax: real)
    requires 0.0 <= p.legalReserveRate <= 1.0 && 0.0 <= afterTax
    ensures 0.0 <= ReserveAccrual(p, capital, legal, afterTax) <= afterTax
  {
    if p.legalReserveOn {
      CappedShare(afterTax, p.legalReserveRate, Max(0.0, capital * p.legalReserveCap - legal));
    }
  }

  lemma SplitAccrualWithinProfit(p: Policy, y: int, s: Ledger)
    requires 0.0 <= p.legalReserveRate <= 1.0
    ensures 0.0 <= SplitYear(p, y, s).toLegal <= SplitYear(p, y, s).afterTax
  {
    var sp := SplitYear(p, y, s);
    AccrualWithinProfit(p, s.capital, s.legalReserve, sp.afterTax);
  }

  /** Under `ReserveParamsOk` a stock dividend is never negative. */
  lemma SplitStockNonNegative(p: Policy, y: int, s: Ledger)
    requires ReserveParamsOk(p)
    ensures SplitYear(p, y, s).stock >= 0.0
  {
    var sp := SplitYear(p, y, s);
    SplitAccrualWithinProfit(p, y, s);
    MulNonNegative(sp.afterTax - sp.toLegal, StockPct(p, y));
  }

  /** The balance facts every year preserves, whatever the parameters. */
  predicate Sound(p: Policy, s: Ledger) {
    && s.capSurplus == 0.0
    && s.retained >= 0.0
    && (!p.legalReserveOn ==> s.legalReserve == 0.0)
  }

  lemma StepSound(p: Policy, y: int, s: Ledger)
    requires Sound(p, s)
    ensures Sound(p, NextLedger(p, y, s))
  {
  }

  /** A legal reserve of at most `cap` times capital. */
  predicate WithinCap(p: Policy, legal: real, capital: real) {
    legal <= capital * p.legalReserveCap
  }

  /** The reserve is within its cap, capital has not fallen below its opening value, and there is no surplus. */
  predicate Capped(p: Policy, s: Ledger) {
    && s.capSurplus == 0.0
    && p.initCapital <= s.capital
    && WithinCap(p, s.legalReserve, s.capital)
  }

  /** A row whose legal reserve is within `cap` times its capital. */
  predicate ShowsCap(p: Policy, row: YearRow) {
    WithinCap(p, row.legalReserve, row.capital)
  }

  /** One year keeps the reserve within its cap and never shrinks capital. */
  lemma StepKeepsCap(p: Policy, y: int, s: Ledger)
    requires ReserveParamsOk(p)
    requires Capped(p, s)
    ensures Capped(p, NextLedger(p, y, s))
  {
    var n := NextLedger(p, y, s);
    var sp := SplitYear(p, y, s);
    SplitStockNonNegative(p, y, s);
    ReserveAccrualBounds(p, s.capital, s.legalReserve, sp.afterTax);
    assert n.legalReserve <= s.capital * p.legalReserveCap;
    MulMonotone(s.capital, n.capital, p.legalReserveCap);
  }

  /** What a simulated year produces from its number and opening balances: the row it emits. */
  type RowFn = (int, Ledger) -> YearRow
  /** What a simulated year produces from its number and opening balances: the balances it carries out. */
  type StepFn = (int, Ledger) -> Ledger

  /** The rows of years y..y+n-1 of a fold that emits `row` and carries `next`, from balances `s`. */
  function Rows(row: RowFn, next: StepFn, y: int, n: nat, s: Ledger): (rows: seq<YearRow>)
    ensures |rows| == n
    decreases n
  {
    if n == 0 then [] else [row(y, s)] + Rows(row, next, y + 1, n - 1, next(y, s))
  }

  /** The balances after years y..y+n-1 of a fold that carries `next`, from balances `s`. */
  function After(next: StepFn, y: int, n: nat, s: Ledger): Ledger
    decreases n
  {
    if n == 0 then s else After(next, y + 1, n - 1, next(y, s))
  }

  /** One more year is one more step on the balances. */
  lemma {:induction false} AfterSnoc(next: StepFn, y: int, n: nat, s: Ledger)
    ensures After(next, y, n + 1, s) == next(y + n, After(next, y, n, s))
    decreases n
  {
    if n > 0 {
      AfterSnoc(next, y + 1, n - 1, next(y, s));
    }
  }

  /** One more year appends one more row: the last year's, on the balances the earlier years leave. */
  lemma {:induction false} RowsSnoc(row: RowFn, next: StepFn, y: int, n: nat, s: Ledger)
    ensures Rows(row, next, y, n + 1, s) == Rows(row, next, y, n, s) + [row(y + n, After(next, y, n, s))]
    decreases n
  {
    if n > 0 {
      var s' := next(y, s);
      RowsSnoc(row, next, y + 1, n - 1, s');
      assert [row(y, s)] + (Rows(row, next, y + 1, n - 1, s') + [row(y + n, After(next, y + 1, n - 1, s'))])
        == ([row(y, s)] + Rows(row, next, y + 1, n - 1, s')) + [row(y + n, After(next, y + 1, n - 1, s'))];
    }
  }

  /** Row i is year y + i applied to the balances after i years. */
  lemma {:induction false} RowIsYear(row: RowFn, next: StepFn, y: int, n: nat, s: Ledger, i: int)
    requires 0 <= i < n
    ensures Rows(row, next, y, n, s)[i] == row(y + i, After(next, y, i, s))
    decreases n
  {
    if i > 0 {
      RowIsYear(row, next, y + 1, n - 1, next(y, s), i - 1);
      assert Rows(row, next, y, n, s)[i] == Rows(row, next, y + 1, n - 1, next(y, s))[i - 1];
    }
  }

  /** A property of the balances that every year keeps holds after any number of years. */
  lemma {:induction false} AfterKeeps(next: StepFn, inv: Ledger -> bool, y: int, n: nat, s: Ledger)
    requires forall y', s' :: inv(s') ==> inv(next(y', s'))
    requires inv(s)
    ensures inv(After(next, y, n, s))
    decreases n
  {
    if n > 0 {
      AfterKeeps(next, inv, y + 1, n - 1, next(y, s));
    }
  }

  /** If every year from kept balances emits a good row, every row of the fold is good. */
  lemma RowsKeep(row: RowFn, next: StepFn, inv: Ledger -> bool, good: YearRow -> bool, y: int, n: nat, s: Ledger)
    requires forall y', s' :: inv(s') ==> inv(next(y', s')) && good(row(y', s'))
    requires inv(s)
    ensures forall i :: 0 <= i < n ==> good(Rows(row, next, y, n, s)[i])
  {
    forall i | 0 <= i < n ensures good(Rows(row, next, y, n, s)[i]) {
      RowIsYear(row, next, y, n, s, i);
      AfterKeeps(next, inv, y, i, s);
    }
  }

  /** Rows numbered by the year they are emitted for are numbered y, y+1, ... in the fold. */
  lemma RowsNumbered(row: RowFn, next: StepFn, y: int, n: nat, s: Ledger)
    requires forall y', s' :: row(y', s').year == y'
    ensures forall i :: 0 <= i < n ==> Rows(row, next, y, n, s)[i].year == y + i
  {
    forall i | 0 <= i < n ensures Rows(row, next, y, n, s)[i].year == y + i {
      RowIsYear(row, next, y, n, s, i);
    }
  }

  /** Every row shows the balances its year carries out. */
  ghost predicate ShowsBalances(row: RowFn, next: StepFn) {
    forall y, s :: && row(y, s).capital == next(y, s).capital
                   && row(y, s).retained == next(y, s).retained
                   && row(y, s).legalReserve == next(y, s).legalReserve
  }

  /** The last row of the fold shows the balances after the last year. */
  lemma LastRowIsAfter(row: RowFn, next: StepFn, y: int, n: nat, s: Ledger)
    requires ShowsBalances(row, next)
    requires n >= 1
    ensures Rows(row, next, y, n, s)[n - 1].capital == After(next, y, n, s).capital
    ensures Rows(row, next, y, n, s)[n - 1].retained == After(next, y, n, s).retained
    ensures Rows(row, next, y, n, s)[n - 1].legalReserve == After(next, y, n, s).legalReserve
  {
    RowIsYear(row, next, y, n, s, n - 1);
    AfterSnoc(next, y, n - 1, s);
    assert n - 1 + 1 == n;
  }

  /** The summed columns of the per-year table. */
  datatype Column = CompanyTaxCol | ShareholderTaxCol | TotalTaxCol | StockCol | KeepCol | ToLegalCol

  function Cell(row: YearRow, c: Column): real {
    match c
    case CompanyTaxCol => row.companyTax
    case ShareholderTaxCol => row.shTax
    case TotalTaxCol => row.totalTax
    case StockCol => row.stock
    case KeepCol => row.keep
    case ToLegalCol => row.toLegal
  }

  /** A column sum of the per-year table. */
  function SumBy(rows: seq<YearRow>, c: Column): real
    decreases |rows|
  {
    if |rows| == 0 then 0.0 else Cell(rows[0], c) + SumBy(rows[1..], c)
  }

  /** Appending a row adds its cell to the column sum. */
  lemma {:induction false} SumBySnoc(rows: seq<YearRow>, row: YearRow, c: Column)
    ensures SumBy(rows + [row], c) == SumBy(rows, c) + Cell(row, c)
    decreases |rows|
  {
    if |rows| > 0 {
      assert (rows + [row])[1..] == rows[1..] + [row];
      SumBySnoc(rows[1..], row, c);
    }
  }

  /** When every row's total is its company tax plus its shareholder tax, so are the column sums. */
  lemma {:induction false} SumOfTotals(rows: seq<YearRow>)
    requires forall i :: 0 <= i < |rows| ==> rows[i].totalTax == rows[i].companyTax + rows[i].shTax
    ensures SumBy(rows, TotalTaxCol) == SumBy(rows, CompanyTaxCol) + SumBy(rows, ShareholderTaxCol)
    decreases |rows|
  {
    if |rows| > 0 {
      assert rows[0].totalTax == rows[0].companyTax + rows[0].shTax;
      SumOfTotals(rows[1..]);
    }
  }

  /**
   With no capital surplus, each year adds its stock dividend to capital, its
   retention to retained earnings and its accrual to the reserve, and leaves
   no surplus.
   */
  ghost predicate Accumulates(row: RowFn, next: StepFn) {
    forall y: int, s: Ledger :: s.capSurplus == 0.0 ==>
      && next(y, s).capSurplus == 0.0
      && next(y, s).capital == s.capital + row(y, s).stock
      && next(y, s).retained == s.retained + row(y, s).keep
      && next(y, s).legalReserve == s.legalReserve + row(y, s).toLegal
  }

  lemma {:induction false} AfterIsColumnSums(row: RowFn, next: StepFn, y: int, n: nat, s: Ledger)
    requires Accumulates(row, next)
    requires s.capSurplus == 0.0
    ensures After(next, y, n, s).capital == s.capital + SumBy(Rows(row, next, y, n, s), StockCol)
    ensures After(next, y, n, s).retained == s.retained + SumBy(Rows(row, next, y, n, s), KeepCol)
    ensures After(next, y, n, s).legalReserve == s.legalReserve + SumBy(Rows(row, next, y, n, s), ToLegalCol)
    decreases n
  {
    if n > 0 {
      var rows := Rows(row, next, y, n, s);
      AfterIsColumnSums(row, next, y + 1, n - 1, next(y, s));
      assert rows[0] == row(y, s);
      assert rows[1..] == Rows(row, next, y + 1, n - 1, next(y, s));
    }
  }

  /** The simulator's year as the row it emits. */
  function YearRowFn(p: Policy): RowFn {
    (y, s) => RowOf(p, y, s)
  }

  /** The simulator's year as the balances it carries out. */
  function YearStepFn(p: Policy): StepFn {
    (y, s) => NextLedger(p, y, s)
  }

  /** The table `simulate_dividend_policy` builds: years 1..years from the opening balances. */
  function Table(p: Policy): seq<YearRow>
    requires p.years >= 0
  {
    Rows(YearRowFn(p), YearStepFn(p), 1, p.years, Opening(p))
  }

  /** The balances after the first n years. */
  function Final(p: Policy, n: nat): Ledger {
    After(YearStepFn(p), 1, n, Opening(p))
  }

  /** Row i of the table is year i + 1 on the balances after i years. */
  lemma TableRow(p: Policy, i: int)
    requires 0 <= i < p.years
    ensures Table(p)[i] == RowOf(p, i + 1, Final(p, i))
  {
    RowIsYear(YearRowFn(p), YearStepFn(p), 1, p.years, Opening(p), i);
  }

  /** The table has exactly one row per year, numbered 1..years. */
  lemma TableNumbered(p: Policy)
    requires p.years >= 0
    ensures |Table(p)| == p.years
    ensures forall i :: 0 <= i < p.years ==> Table(p)[i].year == i + 1
  {
    forall y, s ensures YearRowFn(p)(y, s).year == y {
      RowShowsSplit(p, y, s);
    }
    RowsNumbered(YearRowFn(p), YearStepFn(p), 1, p.years, Opening(p));
  }

  /**
   The capital-surplus balance starts at zero and nothing adds to it, so the
   conversion branch never fires and the balance stays zero; retained earnings
   never go negative; with the accrual switched off the reserve stays zero.
   */
  lemma LedgerInvariants(p: Policy, n: nat)
    ensures Final(p, n).capSurplus == 0.0
    ensures Final(p, n).retained >= 0.0
    ensures !p.legalReserveOn ==> Final(p, n).legalReserve == 0.0
  {
    var inv := s => Sound(p, s);
    forall y', s' | inv(s') ensures inv(YearStepFn(p)(y', s')) {
      StepSound(p, y', s');
    }
    AfterKeeps(YearStepFn(p), inv, 1, n, Opening(p));
  }

  /**
   Under `ReserveParamsOk`, after any number of years capital is at least its
   opening value and the legal reserve is at most `cap` times capital, and
   every row of the table shows a reserve within its cap.
   */
  lemma ReserveWithinCap(p: Policy, n: nat)
    requires ReserveParamsOk(p)
    ensures Final(p, n).capital >= p.initCapital
    ensures Final(p, n).legalReserve <= Final(p, n).capital * p.legalReserveCap
    ensures forall i :: 0 <= i < n ==> ShowsCap(p, Rows(YearRowFn(p), YearStepFn(p), 1, n, Opening(p))[i])
  {
    var inv := s => Capped(p, s);
    var good := r => ShowsCap(p, r);
    forall y', s' | inv(s') ensures inv(YearStepFn(p)(y', s')) && good(YearRowFn(p)(y', s')) {
      StepKeepsCap(p, y', s');
      RowShowsSplit(p, y', s');
    }
    MulNonNegative(p.initCapital, p.legalReserveCap);
    assert inv(Opening(p));
    AfterKeeps(YearStepFn(p), inv, 1, n, Opening(p));
    assert Capped(p, Final(p, n));
    RowsKeep(YearRowFn(p), YearStepFn(p), inv, good, 1, n, Opening(p));
  }

  /** The simulator's rows show its balances, and its years accumulate into them. */
  lemma YearAccumulates(p: Policy)
    ensures ShowsBalances(YearRowFn(p), YearStepFn(p))
    ensures Accumulates(YearRowFn(p), YearStepFn(p))
  {
    forall y, s ensures
      && YearRowFn(p)(y, s).capital == YearStepFn(p)(y, s).capital
      && YearRowFn(p)(y, s).retained == YearStepFn(p)(y, s).retained
      && YearRowFn(p)(y, s).legalReserve == YearStepFn(p)(y, s).legalReserve
    {
      RowShowsSplit(p, y, s);
    }
    forall y: int, s: Ledger | s.capSurplus == 0.0 ensures
      && YearStepFn(p)(y, s).capSurplus == 0.0
      && YearStepFn(p)(y, s).capital == s.capital + YearRowFn(p)(y, s).stock
      && YearStepFn(p)(y, s).retained == s.retained + YearRowFn(p)(y, s).keep
      && YearStepFn(p)(y, s).legalReserve == s.legalReserve + YearRowFn(p)(y, s).toLegal
    {
      RowShowsSplit(p, y, s);
    }
  }

  /**
   Accumulation: after n years, capital is the opening capital plus every stock
   dividend, retained earnings are the sum of every year's retention, and the
   legal reserve is the sum of every accrual.
   */
  lemma LedgerIsColumnSums(p: Policy, n: nat)
    ensures Final(p, n).capital == p.initCapital + SumBy(Rows(YearRowFn(p), YearStepFn(p), 1, n, Opening(p)), StockCol)
    ensures Final(p, n).retained == SumBy(Rows(YearRowFn(p), YearStepFn(p), 1, n, Opening(p)), KeepCol)
    ensures Final(p, n).legalReserve == SumBy(Rows(YearRowFn(p), YearStepFn(p), 1, n, Opening(p)), ToLegalCol)
  {
    YearAccumulates(p);
    AfterIsColumnSums(YearRowFn(p), YearStepFn(p), 1, n, Opening(p));
  }

  /**
   The final balances the simulator reports, read off the table's last row,
   are the opening capital plus every stock dividend, the sum of every
   retention and the sum of every accrual.
   */
  lemma LastRowIsColumnSums(p: Policy)
    requires p.years >= 1
    ensures Table(p)[p.years - 1].capital == p.initCapital + SumBy(Table(p), StockCol)
    ensures Table(p)[p.years - 1].retained == SumBy(Table(p), KeepCol)
    ensures Table(p)[p.years - 1].legalReserve == SumBy(Table(p), ToLegalCol)
  {
    YearAccumulates(p);
    LastRowIsAfter(YearRowFn(p), YearStepFn(p), 1, p.years, Opening(p));
    LedgerIsColumnSums(p, p.years);
  }

  /** Retained earnings never shrink from one year to the next. */
  lemma RetainedNonDecreasing(p: Policy, n: nat)
    ensures Final(p, n).retained <= Final(p, n + 1).retained
  {
    AfterSnoc(YearStepFn(p), 1, n, Opening(p));
    assert Final(p, n + 1) == NextLedger(p, 1 + n, Final(p, n));
  }

  /** Summed over the table, the total tax is company tax plus shareholder tax. */
  lemma TotalIsCompanyPlusShareholder(p: Policy)
    requires p.years >= 0
    ensures SumBy(Table(p), TotalTaxCol) == SumBy(Table(p), CompanyTaxCol) + SumBy(Table(p), ShareholderTaxCol)
  {
    var t := Table(p);
    forall i | 0 <= i < |t| ensures t[i].totalTax == t[i].companyTax + t[i].shTax {
      TableRow(p, i);
      RowOfTaxes(p, i + 1, Final(p, i));
    }
    SumOfTotals(t);
  }

  /**
   `simulate_dividend_policy`, as the source's loop. With no year to simulate
   the source fails when it reads a column of the empty table; that is `None`.
   Otherwise the rows are the fold `Table`, one per year numbered 1..years,
   the totals are the column sums, and the final balances are the last row's,
   which are the opening capital plus all stock dividends, the sum of all
   retentions and the sum of all accruals.
   */
  method SimulateDividendPolicy(p: Policy) returns (out: Option<Outcome>)
    ensures out.None? <==> p.years < 1
    ensures out.Some? ==> out.value.rows == Table(p)
    ensures out.Some? ==> |out.value.rows| == p.years
    ensures out.Some? ==> forall i :: 0 <= i < |out.value.rows| ==> out.value.rows[i].year == i + 1
    ensures out.Some? ==> out.value.totals.companyTax == SumBy(out.value.rows, CompanyTaxCol)
    ensures out.Some? ==> out.value.totals.shareholderTax == SumBy(out.value.rows, ShareholderTaxCol)
    ensures out.Some? ==> out.value.totals.totalTax == SumBy(out.value.rows, TotalTaxCol)
    ensures out.Some? ==> out.value.totals.finalCapital == out.value.rows[p.years - 1].capital
    ensures out.Some? ==> out.value.totals.finalRetained == out.value.rows[p.years - 1].retained
    ensures out.Some? ==> out.value.totals.finalLegalReserve == out.value.rows[p.years - 1].legalReserve
    ensures out.Some? ==> out.value.totals.finalEquity == out.value.rows[p.years - 1].equity
    ensures out.Some? ==>
      out.value.totals.finalCapital == p.initCapital + SumBy(out.value.rows, StockCol)
    ensures out.Some? ==> out.value.totals.finalRetained == SumBy(out.value.rows, KeepCol)
    ensures out.Some? ==> out.value.totals.finalLegalReserve == SumBy(out.value.rows, ToLegalCol)
  {
    if p.years < 1 {
      return None;
    }
    var rows, companySum, shareholderSum, totalSum := RunYears(YearRowFn(p), YearStepFn(p), p.years, Opening(p));
    TableNumbered(p);
    LastRowIsColumnSums(p);
    var last := rows[|rows| - 1];
    return Some(Outcome(rows, Totals(companySum, shareholderSum, totalSum,
                                     last.capital, last.retained, last.legalReserve, last.equity)));
  }

  /**
   The simulator's loop over years 1..years: append each year's row, carry the
   balances it leaves into the next year, and keep running sums of the three
   tax columns.
   */
  method RunYears(row: RowFn, next: StepFn, years: nat, s0: Ledger)
    returns (rows: seq<YearRow>, companySum: real, shareholderSum: real, totalSum: real)
    ensures rows == Rows(row, next, 1, years, s0)
    ensures companySum == SumBy(rows, CompanyTaxCol)
    ensures shareholderSum == SumBy(rows, ShareholderTaxCol)
    ensures totalSum == SumBy(rows, TotalTaxCol)
  {
    rows := [];
    companySum, shareholderSum, totalSum := 0.0, 0.0, 0.0;
    var ledger := s0;
    var y := 1;
    while y <= years
      invariant 1 <= y <= years + 1
      invariant rows == Rows(row, next, 1, y - 1, s0)
      invariant ledger == After(next, 1, y - 1, s0)
      invariant companySum == SumBy(rows, CompanyTaxCol)
      invariant shareholderSum == SumBy(rows, ShareholderTaxCol)
      invariant totalSum == SumBy(rows, TotalTaxCol)
      decreases years - y
    {
      var r := row(y, ledger);
      RowsSnoc(row, next, 1, y - 1, s0);
      AfterSnoc(next, 1, y - 1, s0);
      SumBySnoc(rows, r, CompanyTaxCol);
      SumBySnoc(rows, r, ShareholderTaxCol);
      SumBySnoc(rows, r, TotalTaxCol);
      rows := rows + [r];
      ledger := next(y, ledger);
      companySum := companySum + r.companyTax;
      shareholderSum := shareholderSum + r.shTax;
      totalSum := totalSum + r.totalTax;
      y := y + 1;
    }
  }

  /** A row's tax columns: company tax is corporate tax plus the surtax on retention, and the total adds the shareholder's tax. */
  lemma RowOfTaxes(p: Policy, y: int, s: Ledger)
    ensures var row := RowOf(p, y, s);
      && row.companyTax == row.corpTax + row.undistTax
      && row.totalTax == row.companyTax + row.shTax
  {
  }

  /** Year y pays out by the phase-1 percentages exactly when y <= phase1_years, otherwise by the phase-2 ones. */
  lemma SplitFollowsPhase(p: Policy, y: int, s: Ledger)
    ensures var sp := SplitYear(p, y, s);
      && (y <= p.phase1Years ==>
            sp.cash == (sp.afterTax - sp.toLegal) * p.phase1CashPct
            && sp.stock == (sp.afterTax - sp.toLegal) * p.phase1StockPct)
      && (y > p.phase1Years ==>
            sp.cash == (sp.afterTax - sp.toLegal) * p.phase2CashPct
            && sp.stock == (sp.afterTax - sp.toLegal) * p.phase2StockPct)
  {
    var sp := SplitYear(p, y, s);
    var d := sp.afterTax - sp.toLegal;
    assert sp.cash == d * CashPct(p, y) && sp.stock == d * StockPct(p, y);
  }

  /** A row's shareholder tax is the shareholder's tax on the year's cash plus stock dividend. */
  lemma RowOfShareholderTax(p: Policy, y: int, s: Ledger)
    ensures var row := RowOf(p, y, s);
      row.shTax == ShareholderTax(p.shareholderKind, row.cash + row.stock, p.indivMode, p.otherIncome,
                                  p.nonresidentWithholding)
  {
  }

  /**
   Conservation: with non-negative payout percentages summing to at most one
   and an accrual rate in [0, 1], each year's after-tax profit is exactly the
   reserve accrual plus cash dividend plus stock dividend plus retention.
   */
  lemma YearConserves(p: Policy, y: int, s: Ledger)
    requires 0.0 <= p.legalReserveRate <= 1.0
    requires CashPct(p, y) >= 0.0 && StockPct(p, y) >= 0.0
    requires CashPct(p, y) + StockPct(p, y) <= 1.0
    ensures var sp := SplitYear(p, y, s);
      sp.afterTax == sp.toLegal + sp.cash + sp.stock + sp.keep
  {
    var sp := SplitYear(p, y, s);
    SplitAccrualWithinProfit(p, y, s);
    var d := sp.afterTax - sp.toLegal;
    assert sp.cash == d * CashPct(p, y) && sp.stock == d * StockPct(p, y);
    assert sp.keep == Max(0.0, d - sp.cash - sp.stock);
    PayoutConserves(d, CashPct(p, y), StockPct(p, y));
  }

  /** The simulator's year-1 corporate tax on the default profit: 4,000,000, leaving 16,000,000. */
  lemma DefaultYearOneExample()
    ensures SplitYear(DefaultPolicy, 1, Opening(DefaultPolicy)).corpTax == 4000000.0
    ensures SplitYear(DefaultPolicy, 1, Opening(DefaultPolicy)).afterTax == 16000000.0
  {
  }

  /**
   Without the accrual-rate bound the cap can break: at rate 2 the accrual
   exceeds after-tax profit, the distributable base turns negative, a stock
   dividend then shrinks capital, and the reserve ends above cap times capital.
   */
  lemma ReserveCapNeedsRateAtMostOne()
    ensures var p := DefaultPolicy.(legalReserveRate := 2.0, phase1StockPct := 1.0,
                                    pretaxProfit := 100.0, initCapital := 1000.0, legalReserveCap := 0.15);
      var n := NextLedger(p, 1, Opening(p));
      n.legalReserve > n.capital * p.legalReserveCap
  {
  }
}

=== FILE: dividend_tax.dfy ===
/**
 Shareholder-level tax on a distributed dividend: `indiv_div_tax` for
 resident individuals (flat 28% or integration into the progressive income
 tax with a capped 8.5% credit), and the three-way split by shareholder kind
 the dividend simulator applies.
 */
module DividendTax {
  import opened Numeric
  import opened Brackets

  /** `DIVIDEND_CREDIT_RATE` */
  const CreditRate: real := 0.085
  /** `DIVIDEND_CREDIT_CAP` */
  const CreditCap: real := 80000.0
  /** The separate-taxation rate of the `"split28"` mode. */
  const SeparateRate: real := 0.28

  /** How a resident individual's dividend is taxed. */
  datatype IndivMode = Split28 | Integrated

  /** The source compares the mode string with `"split28"`; every other string integrates. */
  function ParseMode(s: string): (m: IndivMode)
    ensures m == Split28 <==> s == "split28"
  {
    if s == "split28" then Split28 else Integrated
  }

  datatype ShareholderKind = IndividualResident | CorporateResident | Nonresident

  /** Two names are recognised; any other string falls into the nonresident branch. */
  function ParseKind(s: string): (k: ShareholderKind)
    ensures k == CorporateResident <==> s == "corporate_resident"
    ensures k == IndividualResident <==> s == "individual_resident"
    ensures k == Nonresident <==> s != "corporate_resident" && s != "individual_resident"
  {
    if s == "corporate_resident" then CorporateResident
    else if s == "individual_resident" then IndividualResident
    else Nonresident
  }

  /** The extra bracket tax caused by stacking `amount` on top of `other`, floored at zero. */
  function IncrementalTax(amount: real, other: real, t: Table): (r: real)
    requires |t| > 0
    ensures r >= 0.0
    ensures r >= QuickTax(other + amount, t) - QuickTax(other, t)
  {
    Max(0.0, QuickTax(other + amount, t) - QuickTax(other, t))
  }

  /** The dividend credit: 8.5% of the dividend, at most 80,000. */
  function Credit(amount: real): (c: real)
    ensures c <= CreditCap && c <= amount * CreditRate
    ensures c == CreditCap || c == amount * CreditRate
  {
    Min(amount * CreditRate, CreditCap)
  }

  /** `indiv_div_tax(amount, mode, other_income, brackets)`. */
  function IndivDivTax(amount: real, mode: IndivMode, other: real, t: Table): (r: real)
    requires |t| > 0
    ensures r >= 0.0
    ensures amount <= 0.0 ==> r == 0.0
    ensures mode == Integrated ==> r <= IncrementalTax(amount, other, t)
  {
    if amount <= 0.0 then 0.0
    else if mode == Split28 then amount * SeparateRate
    else Max(0.0, IncrementalTax(amount, other, t) - Credit(amount))
  }

  /**
   The three outcomes of `indiv_div_tax`: nothing for a non-positive amount,
   28% of the amount when separately taxed, otherwise the incremental bracket
   tax less the capped credit, never below zero and never above the
   incremental tax.
   */
  lemma IndivDivTaxCases(amount: real, mode: IndivMode, other: real, t: Table)
    requires |t| > 0
    ensures amount <= 0.0 ==> IndivDivTax(amount, mode, other, t) == 0.0
    ensures amount > 0.0 && mode == Split28 ==> IndivDivTax(amount, mode, other, t) == amount * 0.28
    ensures amount > 0.0 && mode == Integrated ==>
      var incr := Max(0.0, QuickTax(other + amount, t) - QuickTax(other, t));
      && IndivDivTax(amount, mode, other, t) == Max(0.0, incr - Min(0.085 * amount, 80000.0))
      && 0.0 <= IndivDivTax(amount, mode, other, t) <= incr
  {
  }

  /**
   On a well-formed table the floor in the incremental tax is inactive: the
   integrated tax is the bracket-tax difference less the credit, floored at zero,
   and it is at most that difference.
   */
  lemma IntegratedTaxWithinDifference(amount: real, other: real, t: Table)
    requires WellFormed(t)
    requires amount > 0.0
    ensures QuickTax(other + amount, t) >= QuickTax(other, t)
    ensures IndivDivTax(amount, Integrated, other, t)
      == Max(0.0, QuickTax(other + amount, t) - QuickTax(other, t) - Credit(amount))
    ensures IndivDivTax(amount, Integrated, other, t) <= QuickTax(other + amount, t) - QuickTax(other, t)
  {
    QuickTaxMonotone(other, other + amount, t);
  }

  /** A one-million dividend taxed separately costs 280,000. */
  lemma Split28Example()
    ensures IndivDivTax(1000000.0, Split28, 0.0, DefaultBrackets) == 280000.0
  {
  }

  /**
   The shareholder tax of one simulator year, by kind: corporate residents pay
   nothing, resident individuals go through `indiv_div_tax` on the default
   table, and everyone else pays the flat withholding rate.
   */
  function ShareholderTax(kind: ShareholderKind, paid: real, mode: IndivMode, other: real,
                          withholding: real): (r: real)
    ensures kind == CorporateResident ==> r == 0.0
    ensures kind == IndividualResident ==> r >= 0.0 && (paid <= 0.0 ==> r == 0.0)
    ensures kind == Nonresident && paid >= 0.0 && withholding >= 0.0 ==> r >= 0.0
  {
    match kind
    case CorporateResident => 0.0
    case IndividualResident => IndivDivTax(paid, mode, other, DefaultBrackets)
    case Nonresident => paid * withholding
  }

  /**
   The three branches of the shareholder tax: nothing for a corporate
   resident, the flat withholding rate for anyone not resident, and the
   individual dividend tax on the default table for a resident individual.
   */
  lemma ShareholderTaxByKind(kind: ShareholderKind, paid: real, mode: IndivMode, other: real,
                             withholding: real)
    ensures kind == CorporateResident ==> ShareholderTax(kind, paid, mode, other, withholding) == 0.0
    ensures kind == Nonresident ==> ShareholderTax(kind, paid, mode, other, withholding) == paid * withholding
    ensures kind == IndividualResident ==>
      ShareholderTax(kind, paid, mode, other, withholding) == IndivDivTax(paid, mode, other, DefaultBrackets)
  {
  }

  /** Shareholder tax is never negative for a non-negative payout and withholding rate. */
  lemma ShareholderTaxNonNegative(kind: ShareholderKind, paid: real, mode: IndivMode, other: real,
                                  withholding: real)
    requires paid >= 0.0 && withholding >= 0.0
    ensures ShareholderTax(kind, paid, mode, other, withholding) >= 0.0
  {
  }
}

=== FILE: estate_gift.dfy ===
/**
 `estate_and_gift_simulator`: four ways of passing a family's wealth to its
 heirs, each priced with the quick-deduction evaluator, and the split of each
 scenario's net amount among the heirs by their normalised shares.

 A  keep everything until death;
 B  give `annual_gift` a year for `years_of_gifting` years first;
 C  the insurance-compensation scenario, priced exactly like A;
 D  the illustrative trust, which with the toggle on leaves the insurance
    sum out of the estate altogether.
 */
module EstateGift {
  import opened Numeric
  import opened Wrappers
  import opened Brackets

  /** One heir and the share of the estate they are to receive. */
  datatype Heir = Heir(name: string, share: real)

  /** The two equal heirs used when none are given. */
  const DefaultHeirs: seq<Heir> := [Heir("A", 0.5), Heir("B", 0.5)]

  function SumShares(h: seq<Heir>): real
    decreases |h|
  {
    if |h| == 0 then 0.0 else h[0].share + SumShares(h[1..])
  }

  /** `sum(shares) or 1.0`: the share total, or one when the total is zero. */
  function Divisor(h: seq<Heir>): (d: real)
    ensures d != 0.0
    ensures SumShares(h) != 0.0 ==> d == SumShares(h)
    ensures SumShares(h) == 0.0 ==> d == 1.0
  {
    var t := SumShares(h);
    if t != 0.0 then t else 1.0
  }

  /** Every heir keeps their name and has their share divided by `d`. */
  function DivideShares(h: seq<Heir>, d: real): (r: seq<Heir>)
    requires d != 0.0
    ensures |r| == |h|
    ensures forall i :: 0 <= i < |h| ==> r[i].name == h[i].name && r[i].share == h[i].share / d
    decreases |h|
  {
    if |h| == 0 then [] else [Heir(h[0].name, h[0].share / d)] + DivideShares(h[1..], d)
  }

  /** The heirs the allocation uses: the defaults for a missing or empty list, otherwise shares over their total. */
  function NormalizeHeirs(heirs: Option<seq<Heir>>): seq<Heir> {
    if heirs.None? || |heirs.value| == 0 then DefaultHeirs
    else DivideShares(heirs.value, Divisor(heirs.value))
  }

  /** Dividing every share by `d` divides their total by `d`. */
  lemma {:induction false} SumOfDivided(h: seq<Heir>, d: real)
    requires d != 0.0
    ensures SumShares(DivideShares(h, d)) == SumShares(h) / d
    decreases |h|
  {
    if |h| > 0 {
      var r := DivideShares(h, d);
      assert r[1..] == DivideShares(h[1..], d);
      SumOfDivided(h[1..], d);
      DivAdd(h[0].share, SumShares(h[1..]), d);
    }
  }

  /**
   Normalisation keeps every heir's name and order; a missing or empty list
   becomes two heirs at one half each; the normalised shares sum to one unless
   the given shares sum to zero, in which case they are left as they were.
   */
  lemma NormalizeHeirsShares(heirs: Option<seq<Heir>>)
    ensures heirs.None? || |heirs.value| == 0 ==>
      NormalizeHeirs(heirs) == [Heir("A", 0.5), Heir("B", 0.5)]
    ensures heirs.Some? && |heirs.value| > 0 ==>
      var r := NormalizeHeirs(heirs);
      && |r| == |heirs.value|
      && (forall i :: 0 <= i < |r| ==> r[i].name == heirs.value[i].name)
    ensures heirs.Some? && |heirs.value| > 0 && SumShares(heirs.value) == 0.0 ==>
      NormalizeHeirs(heirs) == heirs.value
    ensures heirs.None? || |heirs.value| == 0 || SumShares(heirs.value) != 0.0 ==>
      SumShares(NormalizeHeirs(heirs)) == 1.0
  {
    if heirs.Some? && |heirs.value| > 0 {
      var h := heirs.value;
      SumOfDivided(h, Divisor(h));
      if SumShares(h) != 0.0 {
        assert SumShares(h) / SumShares(h) == 1.0;
      } else {
        var r := NormalizeHeirs(heirs);
        assert |r| == |h|;
        forall i | 0 <= i < |h| ensures r[i] == h[i] {
          assert r[i].share == h[i].share / 1.0;
        }
      }
    } else {
      assert SumShares(DefaultHeirs[1..]) == 0.5;
    }
  }

  /** Every parameter of `estate_and_gift_simulator`. */
  datatype Plan = Plan(
    equityValue: real,
    personalAssets: real,
    personalLiabilities: real,
    estateExemption: real,
    estateBrackets: Table,
    annualExclusion: real,
    giftBrackets: Table,
    insuranceSum: real,
    insuranceToHeirs: bool,
    yearsOfGifting: real,
    annualGift: real,
    heirs: Option<seq<Heir>>,
    trustToggle: bool)

  /** The keyword defaults of `estate_and_gift_simulator`. */
  const DefaultPlan: Plan := Plan(
    500000000.0, 50000000.0, 0.0, 13330000.0, EstateBrackets, 0.0, GiftBrackets,
    0.0, true, 5.0, 10000000.0, None, false)

  /** `range(int(years_of_gifting))` runs this many times: the truncated count, none when it is not positive. */
  function GiftYears(p: Plan): (n: nat)
    ensures Trunc(p.yearsOfGifting) > 0 ==> n == Trunc(p.yearsOfGifting)
    ensures Trunc(p.yearsOfGifting) <= 0 ==> n == 0
  {
    if Trunc(p.yearsOfGifting) > 0 then Trunc(p.yearsOfGifting) else 0
  }

  /**
   The source indexes `brackets[-1]` when no bracket matches, which fails on
   an empty table; the gift table is only read when there is a year of gifting.
   */
  predicate PlanOk(p: Plan) {
    && |p.estateBrackets| > 0
    && (GiftYears(p) > 0 ==> |p.giftBrackets| > 0)
  }

  /** Equity plus personal assets less liabilities. */
  function NetWorth(p: Plan): real {
    p.equityValue + p.personalAssets - p.personalLiabilities
  }

  /** The insurance sum counts towards the estate only when it is not paid to the heirs. */
  function InsuranceInEstate(p: Plan): real {
    if p.insuranceToHeirs then 0.0 else p.insuranceSum
  }

  /** The insurance sum the heirs receive directly. */
  function InsurancePaidOut(p: Plan): real {
    if p.insuranceToHeirs then p.insuranceSum else 0.0
  }

  /** Estate tax on a gross estate: the bracket tax of what exceeds the exemption. */
  function EstateTaxOn(p: Plan, gross: real): (t: real)
    requires |p.estateBrackets| > 0
    ensures t >= 0.0
  {
    QuickTax(Max(0.0, gross - p.estateExemption), p.estateBrackets)
  }

  /** The gift tax of one year: the bracket tax of the gift above the annual exclusion. */
  function YearGiftTax(p: Plan): (t: real)
    requires PlanOk(p)
    ensures t >= 0.0
  {
    if GiftYears(p) > 0 then QuickTax(Max(0.0, p.annualGift - p.annualExclusion), p.giftBrackets) else 0.0
  }

  /** The gifting loop: `years` equal years, each adding the same gift tax and the same gift. */
  method GiftingLoop(years: nat, yearTax: real, gift: real) returns (taxSum: real, gifted: real)
    ensures taxSum == years as real * yearTax
    ensures gifted == years as real * gift
  {
    taxSum, gifted := 0.0, 0.0;
    var k := 0;
    while k < years
      invariant 0 <= k <= years
      invariant taxSum == k as real * yearTax
      invariant gifted == k as real * gift
    {
      taxSum := taxSum + yearTax;
      gifted := gifted + gift;
      k := k + 1;
    }
  }

  /** The total gift tax of scenario B: one year's gift tax for every year of gifting. */
  function TotalGiftTax(p: Plan): real
    requires PlanOk(p)
  {
    GiftYears(p) as real * YearGiftTax(p)
  }

  /** The total given away in scenario B. */
  function GiftedTotal(p: Plan): real {
    GiftYears(p) as real * p.annualGift
  }

  datatype Strategy = RetainUntilDeath | AnnualGifting | InsuranceCompensation | TrustIllustrative

  /** One row of the summary table. */
  datatype Scenario = Scenario(strategy: Strategy, gross: real, estateTax: real, giftTax: real, net: real)

  /** Two rows with the same gross estate, estate tax, gift tax and net amount. */
  predicate SameFigures(a: Scenario, b: Scenario) {
    a.gross == b.gross && a.estateTax == b.estateTax && a.giftTax == b.giftTax && a.net == b.net
  }

  function ScenarioA(p: Plan): Scenario
    requires PlanOk(p)
  {
    var gross := NetWorth(p) + InsuranceInEstate(p);
    var tax := EstateTaxOn(p, gross);
    Scenario(RetainUntilDeath, gross, tax, 0.0, gross - tax + InsurancePaidOut(p))
  }

  /** Scenario B from the gifting loop's two totals: the gift tax paid and the amount given away. */
  function GiftingScenario(p: Plan, giftTax: real, gifted: real): Scenario
    requires PlanOk(p)
  {
    var gross := Max(0.0, NetWorth(p) - gifted) + InsuranceInEstate(p);
    var tax := EstateTaxOn(p, gross);
    Scenario(AnnualGifting, gross, tax, giftTax, gross - tax + gifted + InsurancePaidOut(p) - giftTax)
  }

  function ScenarioB(p: Plan): Scenario
    requires PlanOk(p)
  {
    GiftingScenario(p, TotalGiftTax(p), GiftedTotal(p))
  }

  function ScenarioC(p: Plan): Scenario
    requires PlanOk(p)
  {
    var gross := NetWorth(p) + InsuranceInEstate(p);
    var tax := EstateTaxOn(p, gross);
    Scenario(InsuranceCompensation, gross, tax, 0.0, gross - tax + InsurancePaidOut(p))
  }

  /**
   Scenario D from the gifting loop's totals: with the trust toggle on, the
   estate leaves out the insurance; otherwise it is scenario B's estate.
   */
  function TrustScenario(p: Plan, giftTax: real, gifted: real): Scenario
    requires PlanOk(p)
  {
    var gross := if p.trustToggle then Max(0.0, NetWorth(p) - gifted) else GiftingScenario(p, giftTax, gifted).gross;
    var tax := EstateTaxOn(p, gross);
    Scenario(TrustIllustrative, gross, tax, giftTax, gross - tax + gifted - giftTax + InsurancePaidOut(p))
  }

  function ScenarioD(p: Plan): Scenario
    requires PlanOk(p)
  {
    TrustScenario(p, TotalGiftTax(p), GiftedTotal(p))
  }

  /** The summary table, in the order A, B, C, D. */
  function Scenarios(p: Plan): seq<Scenario>
    requires PlanOk(p)
  {
    [ScenarioA(p), ScenarioB(p), ScenarioC(p), ScenarioD(p)]
  }

  /** The insurance scenario is priced exactly like keeping everything: C repeats A's figures. */
  lemma InsuranceScenarioMatchesRetain(p: Plan)
    requires PlanOk(p)
    ensures SameFigures(ScenarioC(p), ScenarioA(p))
  {
  }

  /** With the trust toggle off, the trust scenario repeats the gifting scenario's figures. */
  lemma NoTrustMatchesGifting(p: Plan)
    requires PlanOk(p)
    requires !p.trustToggle
    ensures SameFigures(ScenarioD(p), ScenarioB(p))
  {
  }

  /**
   The toggle changes nothing when the insurance is paid to the heirs: the
   trust scenario differs from gifting only in leaving a sum that is not paid
   to the heirs out of the estate (and out of what the heirs receive).
   */
  lemma TrustMattersOnlyForRetainedInsurance(p: Plan)
    requires PlanOk(p)
    ensures p.insuranceToHeirs ==> SameFigures(ScenarioD(p), ScenarioB(p))
    ensures p.trustToggle && !p.insuranceToHeirs ==>
      && ScenarioD(p).gross == ScenarioB(p).gross - p.insuranceSum
      && ScenarioD(p).net == ScenarioD(p).gross - ScenarioD(p).estateTax + GiftedTotal(p) - TotalGiftTax(p)
  {
  }

  /** With no year of gifting and a non-negative net worth, gifting is the same as keeping everything. */
  lemma NoGiftingMatchesRetain(p: Plan)
    requires PlanOk(p)
    requires GiftYears(p) == 0 && NetWorth(p) >= 0.0
    ensures SameFigures(ScenarioB(p), ScenarioA(p))
  {
  }

  /**
   Giving away a non-negative amount never raises the estate tax: on a
   well-formed table, scenario B's estate tax is at most scenario A's.
   */
  lemma GiftingNeverRaisesEstateTax(p: Plan)
    requires PlanOk(p) && WellFormed(p.estateBrackets)
    requires p.annualGift >= 0.0 && NetWorth(p) >= 0.0
    ensures ScenarioB(p).estateTax <= ScenarioA(p).estateTax
  {
    var n := GiftYears(p) as real;
    MulNonNegative(n, p.annualGift);
    var gA, gB := ScenarioA(p).gross, ScenarioB(p).gross;
    assert gB <= gA;
    QuickTaxMonotone(Max(0.0, gB - p.estateExemption), Max(0.0, gA - p.estateExemption), p.estateBrackets);
  }

  /** One row of the allocation table: a scenario, an heir, their share and their amount. */
  datatype Allocation = Allocation(strategy: Strategy, heir: string, share: real, amount: real)

  /** The rows of one scenario: each heir receives the scenario's net amount times their share. */
  function AllocRows(s: Scenario, h: seq<Heir>): (r: seq<Allocation>)
    ensures |r| == |h|
    decreases |h|
  {
    if |h| == 0 then [] else [Allocation(s.strategy, h[0].name, h[0].share, s.net * h[0].share)] + AllocRows(s, h[1..])
  }

  /** The allocation table: the rows of every scenario in turn, |h| rows per scenario. */
  function Allocations(ss: seq<Scenario>, h: seq<Heir>): (r: seq<Allocation>)
    ensures |r| == |ss| * |h|
    decreases |ss|
  {
    if |ss| == 0 then [] else AllocRows(ss[0], h) + Allocations(ss[1..], h)
  }

  /** Block k of n rows out of m blocks lies inside the m·n rows. */
  lemma BlockBounds(k: int, m: int, n: nat)
    requires 0 <= k < m
    ensures 0 <= k * n && k * n + n == (k + 1) * n <= m * n
    ensures (k + 1) * n - n == k * n
  {
    var d := m - (k + 1);
    NatProduct(d, n);
    assert m * n == (k + 1) * n + d * n;
    NatProduct(k, n);
  }

  /** The product of two naturals is a natural. */
  lemma {:induction false} NatProduct(a: nat, b: nat)
    ensures a * b >= 0
    decreases a
  {
    if a > 0 {
      NatProduct(a - 1, b);
      assert a * b == (a - 1) * b + b;
    }
  }

  /** Rows k·|h| .. (k+1)·|h| of the table: the block of scenario k. */
  function Block(ss: seq<Scenario>, h: seq<Heir>, k: int): seq<Allocation>
    requires 0 <= k < |ss|
  {
    BlockBounds(k, |ss|, |h|);
    Allocations(ss, h)[k * |h| .. (k + 1) * |h|]
  }

  function SumAmounts(a: seq<Allocation>): real
    decreases |a|
  {
    if |a| == 0 then 0.0 else a[0].amount + SumAmounts(a[1..])
  }

  /** Row j of a scenario's rows belongs to heir j and is the net amount times their share. */
  lemma {:induction false} AllocRowsContents(s: Scenario, h: seq<Heir>, j: int)
    requires 0 <= j < |h|
    ensures AllocRows(s, h)[j] == Allocation(s.strategy, h[j].name, h[j].share, s.net * h[j].share)
    decreases |h|
  {
    if j > 0 {
      AllocRowsContents(s, h[1..], j - 1);
    }
  }

  /** A scenario's amounts add up to its net amount times the heirs' share total. */
  lemma {:induction false} AllocRowsSum(s: Scenario, h: seq<Heir>)
    ensures SumAmounts(AllocRows(s, h)) == s.net * SumShares(h)
    decreases |h|
  {
    if |h| > 0 {
      var r := AllocRows(s, h);
      assert r[1..] == AllocRows(s, h[1..]);
      AllocRowsSum(s, h[1..]);
      MulAdd(s.net, h[0].share, SumShares(h[1..]));
    }
  }

  /** A slice lying wholly in the second part of a concatenation is a slice of that part. */
  lemma SliceOfAppend<T>(a: seq<T>, b: seq<T>, lo: int, hi: int)
    requires |a| <= lo <= hi <= |a| + |b|
    ensures (a + b)[lo .. hi] == b[lo - |a| .. hi - |a|]
  {
  }

  /** Scenario k's block of the table is exactly scenario k's rows. */
  lemma {:induction false} AllocationsBlock(ss: seq<Scenario>, h: seq<Heir>, k: int)
    requires 0 <= k < |ss|
    ensures Block(ss, h, k) == AllocRows(ss[k], h)
    decreases |ss|
  {
    var n := |h|;
    var first, rest := AllocRows(ss[0], h), Allocations(ss[1..], h);
    assert Allocations(ss, h) == first + rest;
    BlockBounds(k, |ss|, n);
    if k > 0 {
      AllocationsBlock(ss[1..], h, k - 1);
      BlockBounds(k - 1, |ss| - 1, n);
      SliceOfAppend(first, rest, k * n, (k + 1) * n);
      assert ss[1..][k - 1] == ss[k];
    }
  }

  /** Appending a scenario appends its rows to the table. */
  lemma {:induction false} AllocationsSnoc(ss: seq<Scenario>, s: Scenario, h: seq<Heir>)
    ensures Allocations(ss + [s], h) == Allocations(ss, h) + AllocRows(s, h)
    decreases |ss|
  {
    if |ss| == 0 {
      assert Allocations([s], h) == AllocRows(s, h) + Allocations([], h);
    } else {
      assert (ss + [s])[1..] == ss[1..] + [s];
      AllocationsSnoc(ss[1..], s, h);
    }
  }

  /** The simulator's two tables. */
  datatype Comparison = Comparison(summary: seq<Scenario>, allocations: seq<Allocation>)

  /** The allocation loop: for each scenario in turn, one row per heir. */
  method AllocateAll(summary: seq<Scenario>, heirs: seq<Heir>) returns (allocations: seq<Allocation>)
    ensures allocations == Allocations(summary, heirs)
  {
    allocations := [];
    var k := 0;
    while k < |summary|
      invariant 0 <= k <= |summary|
      invariant allocations == Allocations(summary[..k], heirs)
    {
      AllocationsSnoc(summary[..k], summary[k], heirs);
      assert summary[..k + 1] == summary[..k] + [summary[k]];
      allocations := allocations + AllocRows(summary[k], heirs);
      k := k + 1;
    }
    assert summary[..k] == summary;
  }

  /** Scenarios B and D built from the gifting loop's totals are the summary's B and D. */
  lemma LoopTotalsGiveScenarios(p: Plan, giftTax: real, gifted: real)
    requires PlanOk(p)
    requires giftTax == GiftYears(p) as real * YearGiftTax(p)
    requires gifted == GiftYears(p) as real * p.annualGift
    ensures [ScenarioA(p), GiftingScenario(p, giftTax, gifted), ScenarioC(p), TrustScenario(p, giftTax, gifted)]
         == Scenarios(p)
  {
    assert giftTax == TotalGiftTax(p) && gifted == GiftedTotal(p);
    assert GiftingScenario(p, giftTax, gifted) == ScenarioB(p);
    assert TrustScenario(p, giftTax, gifted) == ScenarioD(p);
  }

  /**
   `estate_and_gift_simulator`, as the source's loops: the gifting loop sums
   one year's gift and gift tax per year, scenarios B and D are built from
   those two totals, and the allocation loop walks the four scenarios and,
   within each, the normalised heirs.
   */
  method EstateAndGiftSimulator(p: Plan) returns (c: Comparison)
    requires PlanOk(p)
    ensures c.summary == Scenarios(p)
    ensures c.summary[1].giftTax == GiftYears(p) as real * YearGiftTax(p)
    ensures c.allocations == Allocations(c.summary, NormalizeHeirs(p.heirs))
    ensures |c.allocations| == 4 * |NormalizeHeirs(p.heirs)|
  {
    var heirs := NormalizeHeirs(p.heirs);
    var giftTax, gifted := GiftingLoop(GiftYears(p), YearGiftTax(p), p.annualGift);
    LoopTotalsGiveScenarios(p, giftTax, gifted);
    var summary := [ScenarioA(p), GiftingScenario(p, giftTax, gifted), ScenarioC(p), TrustScenario(p, giftTax, gifted)];
    assert summary[1].giftTax == giftTax;
    var allocations := AllocateAll(summary, heirs);
    c := Comparison(summary, allocations);
  }

  /** In scenario k's block of the allocation table, heir j receives the scenario's net amount times their share. */
  lemma AllocationRow(ss: seq<Scenario>, h: seq<Heir>, k: int, j: int)
    requires 0 <= k < |ss|
    requires 0 <= j < |h|
    ensures |Block(ss, h, k)| == |h|
    ensures Block(ss, h, k)[j] == Allocation(ss[k].strategy, h[j].name, h[j].share, ss[k].net * h[j].share)
  {
    AllocationsBlock(ss, h, k);
    AllocRowsContents(ss[k], h, j);
  }

  /**
   When the heirs' shares were normalised to one (always, unless the given
   shares summed to zero), each scenario's block of the allocation table adds
   up to that scenario's net amount.
   */
  lemma AllocationSumsToNet(ss: seq<Scenario>, heirs: Option<seq<Heir>>, k: int)
    requires 0 <= k < |ss|
    requires heirs.None? || |heirs.value| == 0 || SumShares(heirs.value) != 0.0
    ensures SumAmounts(Block(ss, NormalizeHeirs(heirs), k)) == ss[k].net
  {
    var h := NormalizeHeirs(heirs);
    AllocationsBlock(ss, h, k);
    NormalizeHeirsShares(heirs);
    AllocRowsSum(ss[k], h);
  }

  /**
   The defaults: 550,000,000 of net worth, 536,670,000 above the exemption in
   the 20% bracket, so 99,834,000 of estate tax and 450,166,000 for the heirs.
   */
  lemma DefaultRetainExample()
    ensures PlanOk(DefaultPlan)
    ensures ScenarioA(DefaultPlan).estateTax == 99834000.0
    ensures ScenarioA(DefaultPlan).net == 450166000.0
  {
  }
}

=== FILE: estate_tax.dfy ===
/**
 The estate tax calculator of the planning page (amounts in units of ten
 thousand): the deductions a household earns, the marginal-slice evaluator
 over the three statutory bands, the insurance and gifting what-ifs, and the
 five-strategy case comparison of the page.
 */
module EstateTax {
  import opened Numeric
  import opened Brackets

  /** One band of the marginal table: `rate` on the slice up to `upper`. */
  datatype RateBand = RateBand(upper: Bound, rate: real)

  /** `TaxConstants`: the exemption, the deductions and the band table. */
  datatype TaxConstants = TaxConstants(
    exemptAmount: real,
    funeralExpense: real,
    spouseDeduction: real,
    adultChildDeduction: real,
    parentsDeduction: real,
    disabledDeduction: real,
    otherDependentsDeduction: real,
    bands: seq<RateBand>)

  /** The dataclass defaults. */
  const Defaults: TaxConstants := TaxConstants(
    1333.0, 138.0, 553.0, 56.0, 138.0, 693.0, 56.0,
    [RateBand(Finite(5621.0), 0.1), RateBand(Finite(11242.0), 0.15), RateBand(Infinite, 0.2)])

  /** The family the deductions are counted for. */
  datatype Household = Household(
    spouse: bool,
    adultChildren: int,
    otherDependents: int,
    disabledPeople: int,
    parents: int)

  /** `compute_deductions`: funeral expenses, the spouse, and a fixed amount per dependant of each kind. */
  function Deductions(c: TaxConstants, h: Household): real {
    (if h.spouse then c.spouseDeduction else 0.0)
    + c.funeralExpense
    + h.disabledPeople as real * c.disabledDeduction
    + h.adultChildren as real * c.adultChildDeduction
    + h.otherDependents as real * c.otherDependentsDeduction
    + h.parents as real * c.parentsDeduction
  }

  /** Every constant is non-negative. */
  predicate ConstantsNonNegative(c: TaxConstants) {
    && c.spouseDeduction >= 0.0 && c.funeralExpense >= 0.0 && c.disabledDeduction >= 0.0
    && c.adultChildDeduction >= 0.0 && c.otherDependentsDeduction >= 0.0 && c.parentsDeduction >= 0.0
  }

  /** `h` has no spouse that `h'` lacks and no more dependants of any kind. */
  predicate FamilyWithin(h: Household, h': Household) {
    && (h.spouse ==> h'.spouse)
    && h.adultChildren <= h'.adultChildren
    && h.otherDependents <= h'.otherDependents
    && h.disabledPeople <= h'.disabledPeople
    && h.parents <= h'.parents
  }

  /** No dependant count is negative. */
  predicate CountsNonNegative(h: Household) {
    h.adultChildren >= 0 && h.otherDependents >= 0 && h.disabledPeople >= 0 && h.parents >= 0
  }

  /** Six termwise inequalities add up. */
  lemma SumMonotone(u1: real, u2: real, u3: real, u4: real, u5: real, u6: real,
                    v1: real, v2: real, v3: real, v4: real, v5: real, v6: real)
    requires u1 <= v1 && u2 <= v2 && u3 <= v3 && u4 <= v4 && u5 <= v5 && u6 <= v6
    ensures u1 + u2 + u3 + u4 + u5 + u6 <= v1 + v2 + v3 + v4 + v5 + v6
  {
  }

  /** A larger family never earns smaller deductions. */
  lemma DeductionsMonotone(c: TaxConstants, h: Household, h': Household)
    requires ConstantsNonNegative(c)
    requires FamilyWithin(h, h')
    ensures Deductions(c, h) <= Deductions(c, h')
  {
    var s1 := if h.spouse then c.spouseDeduction else 0.0;
    var s2 := if h'.spouse then c.spouseDeduction else 0.0;
    var d1, d2 := h.disabledPeople as real * c.disabledDeduction, h'.disabledPeople as real * c.disabledDeduction;
    var a1, a2 := h.adultChildren as real * c.adultChildDeduction, h'.adultChildren as real * c.adultChildDeduction;
    var o1, o2 := h.otherDependents as real * c.otherDependentsDeduction,
                  h'.otherDependents as real * c.otherDependentsDeduction;
    var p1, p2 := h.parents as real * c.parentsDeduction, h'.parents as real * c.parentsDeduction;
    MulMonotone(h.disabledPeople as real, h'.disabledPeople as real, c.disabledDeduction);
    MulMonotone(h.adultChildren as real, h'.adultChildren as real, c.adultChildDeduction);
    MulMonotone(h.otherDependents as real, h'.otherDependents as real, c.otherDependentsDeduction);
    MulMonotone(h.parents as real, h'.parents as real, c.parentsDeduction);
    SumMonotone(s1, c.funeralExpense, d1, a1, o1, p1, s2, c.funeralExpense, d2, a2, o2, p2);
  }

  /**
   With the default constants and no negative count, the deductions are at
   least the funeral expenses, and they never include the exemption.
   */
  lemma DefaultDeductionsAtLeastFuneral(h: Household)
    requires CountsNonNegative(h)
    ensures Deductions(Defaults, h) >= 138.0
    ensures Deductions(Defaults, Household(false, 0, 0, 0, 0)) == 138.0
  {
    DeductionsMonotone(Defaults, Household(false, 0, 0, 0, 0), h);
  }

  /** `taxable_amount > previous_bracket`, where an infinite previous bound is never exceeded. */
  predicate Above(x: real, prev: Bound) {
    prev.Finite? && x > prev.value
  }

  /** `min(taxable_amount, bracket)`, with the infinite bound leaving the amount as it is. */
  function Cap(x: real, upper: Bound): real {
    if upper.Infinite? then x else Min(x, upper.value)
  }

  /**
   The marginal loop from `prev` on: each band whose lower edge the amount
   exceeds taxes the slice up to the band's upper bound at the band's rate and
   moves the lower edge up; a band the amount does not reach is skipped.
   */
  function Marginal(x: real, bands: seq<RateBand>, prev: Bound): real
    decreases |bands|
  {
    if |bands| == 0 then 0.0
    else if Above(x, prev) then
      (Cap(x, bands[0].upper) - prev.value) * bands[0].rate + Marginal(x, bands[1..], bands[0].upper)
    else Marginal(x, bands[1..], prev)
  }

  /** The default schedule as a formula: 10% to 5,621, 15% to 11,242, 20% beyond. */
  function Piecewise(x: real): real {
    if x <= 0.0 then 0.0
    else if x <= 5621.0 then 0.1 * x
    else if x <= 11242.0 then 562.1 + 0.15 * (x - 5621.0)
    else 1405.25 + 0.2 * (x - 11242.0)
  }

  /** On the default bands the marginal loop computes the piecewise formula. */
  lemma DefaultMarginalIsPiecewise(x: real)
    ensures Marginal(x, Defaults.bands, Finite(0.0)) == Piecewise(x)
  {
    var b := Defaults.bands;
    assert b[1..][1..] == [b[2]];
    assert b[1..] == [b[1], b[2]];
  }

  /** The piecewise schedule is never negative and never decreases. */
  lemma PiecewiseMonotone(x: real, y: real)
    requires x <= y
    ensures 0.0 <= Piecewise(x) <= Piecewise(y)
  {
  }

  /** `calculate_estate_tax`'s result: the taxable amount, the tax due and the deductions. */
  datatype Assessment = Assessment(taxable: real, taxDue: real, deductions: real)

  /** The assessment once the deductions are known. */
  function AssessWith(c: TaxConstants, assets: real, ded: real): Assessment {
    if assets < c.exemptAmount + ded then Assessment(0.0, 0.0, ded)
    else
      var taxable := Max(0.0, assets - c.exemptAmount - ded);
      Assessment(taxable, RoundHalfEven(Marginal(taxable, c.bands, Finite(0.0))), ded)
  }

  /** `calculate_estate_tax(total_assets, spouse, adult_children, other_dependents, disabled_people, parents)`. */
  function CalculateEstateTax(c: TaxConstants, assets: real, h: Household): Assessment {
    AssessWith(c, assets, Deductions(c, h))
  }

  /** The default constants' tax due on `assets`. */
  function TaxDue(assets: real, h: Household): real {
    CalculateEstateTax(Defaults, assets, h).taxDue
  }

  /**
   Below the exemption plus the deductions nothing is taxable and nothing is
   due; otherwise the taxable amount is the assets less the exemption less the
   deductions, and the tax due is the piecewise schedule of it rounded half to
   even, a whole number within one half of the exact value. The deductions are
   returned without the exemption.
   */
  lemma AssessmentCases(assets: real, h: Household)
    ensures var a := CalculateEstateTax(Defaults, assets, h);
      var ded := Deductions(Defaults, h);
      && a.deductions == ded
      && (assets < 1333.0 + ded ==> a.taxable == 0.0 && a.taxDue == 0.0)
      && (assets >= 1333.0 + ded ==>
            && a.taxable == assets - 1333.0 - ded >= 0.0
            && IsIntegral(a.taxDue)
            && Abs(a.taxDue - Piecewise(a.taxable)) <= 0.5)
  {
    var ded := Deductions(Defaults, h);
    if assets >= 1333.0 + ded {
      DefaultMarginalIsPiecewise(assets - 1333.0 - ded);
    }
  }

  /** A rounded non-negative amount is not negative. */
  lemma RoundNonNegative(x: real)
    requires 0.0 <= x
    ensures 0.0 <= RoundHalfEven(x)
  {
    RoundMonotone(0.0, x);
    RoundIntegral(0.0);
  }

  /**
   The tax due on the default schedule, for a given deduction total, is a
   non-negative whole number that never decreases as the assets grow and
   never increases as the deductions grow.
   */
  lemma AssessWithMonotone(assets: real, ded: real, assets': real, ded': real)
    requires assets <= assets' && ded' <= ded
    ensures 0.0 <= AssessWith(Defaults, assets, ded).taxDue <= AssessWith(Defaults, assets', ded').taxDue
    ensures IsIntegral(AssessWith(Defaults, assets, ded).taxDue)
  {
    var a, a' := AssessWith(Defaults, assets, ded), AssessWith(Defaults, assets', ded');
    if assets >= 1333.0 + ded {
      DefaultMarginalIsPiecewise(a.taxable);
      DefaultMarginalIsPiecewise(a'.taxable);
      PiecewiseMonotone(a.taxable, a'.taxable);
      RoundMonotone(Piecewise(a.taxable), Piecewise(a'.taxable));
      RoundNonNegative(Piecewise(a.taxable));
    } else if assets' >= 1333.0 + ded' {
      DefaultMarginalIsPiecewise(a'.taxable);
      PiecewiseMonotone(0.0, a'.taxable);
      RoundNonNegative(Piecewise(a'.taxable));
    }
  }

  /** More assets never lower the tax due. */
  lemma TaxDueMonotoneInAssets(assets: real, assets': real, h: Household)
    requires assets <= assets'
    ensures 0.0 <= TaxDue(assets, h) <= TaxDue(assets', h)
  {
    AssessWithMonotone(assets, Deductions(Defaults, h), assets', Deductions(Defaults, h));
  }

  /** Adding a spouse or any dependant never raises the tax due. */
  lemma LargerFamilyNeverRaisesTax(assets: real, h: Household, h': Household)
    requires FamilyWithin(h, h')
    ensures TaxDue(assets, h') <= TaxDue(assets, h)
  {
    DeductionsMonotone(Defaults, h, h');
    AssessWithMonotone(assets, Deductions(Defaults, h'), assets, Deductions(Defaults, h));
  }

  /** Assets of 5,000 with no family: 3,529 taxable at 10%, 352.9 rounded to 353, deductions 138. */
  lemma SmallEstateExample()
    ensures CalculateEstateTax(Defaults, 5000.0, Household(false, 0, 0, 0, 0))
         == Assessment(3529.0, 353.0, 138.0)
  {
    DefaultMarginalIsPiecewise(3529.0);
    assert RoundHalfEven(352.9) == 353.0;
  }

  /**
   The calculator as the source writes it, with the band loop: the running
   tax plus what the remaining bands add from the current lower edge is
   always the whole marginal tax.
   */
  method CalculateEstateTaxLoop(c: TaxConstants, assets: real, h: Household) returns (a: Assessment)
    ensures a == CalculateEstateTax(c, assets, h)
  {
    var ded := Deductions(c, h);
    if assets < c.exemptAmount + ded {
      return Assessment(0.0, 0.0, ded);
    }
    var taxable := Max(0.0, assets - c.exemptAmount - ded);
    var tax := 0.0;
    var prev := Finite(0.0);
    var i := 0;
    while i < |c.bands|
      invariant 0 <= i <= |c.bands|
      invariant tax + Marginal(taxable, c.bands[i..], prev) == Marginal(taxable, c.bands, Finite(0.0))
    {
      assert c.bands[i..][1..] == c.bands[i + 1..];
      var band := c.bands[i];
      if Above(taxable, prev) {
        tax := tax + (Cap(taxable, band.upper) - prev.value) * band.rate;
        prev := band.upper;
      }
      i := i + 1;
    }
    return Assessment(taxable, RoundHalfEven(tax), ded);
  }

  /** The three views of `simulate_insurance_strategy`. */
  datatype InsuranceOutcome = InsuranceOutcome(
    taxNoInsurance: real,
    netNoInsurance: real,
    claim: real,
    taxNew: real,
    netNotTaxed: real,
    effectNotTaxed: real,
    taxEffective: real,
    netTaxed: real,
    effectTaxed: real)

  /**
   `simulate_insurance_strategy`: the premium leaves the estate and the claim,
   `round(premium * premium_ratio)`, reaches the family, either outside the
   estate or (when the claim is in substance taxed) added back to it. Both
   effects are measured against the family's net without a plan.
   */
  function SimulateInsurance(c: TaxConstants, assets: real, h: Household, premiumRatio: real, premium: real)
    : (r: InsuranceOutcome)
    ensures r.claim == RoundHalfEven(premium * premiumRatio)
    ensures r.netNoInsurance == assets - r.taxNoInsurance
    ensures r.effectNotTaxed == r.netNotTaxed - r.netNoInsurance
    ensures r.effectTaxed == r.netTaxed - r.netNoInsurance
  {
    var taxNo := CalculateEstateTax(c, assets, h).taxDue;
    var netNo := assets - taxNo;
    var claim := RoundHalfEven(premium * premiumRatio);
    var newAssets := assets - premium;
    var taxNew := CalculateEstateTax(c, newAssets, h).taxDue;
    var netNotTaxed := RoundHalfEven(newAssets - taxNew + claim);
    var effective := assets - premium + claim;
    var taxEffective := CalculateEstateTax(c, effective, h).taxDue;
    var netTaxed := RoundHalfEven(effective - taxEffective);
    InsuranceOutcome(taxNo, netNo, claim, taxNew, netNotTaxed, netNotTaxed - netNo,
                     taxEffective, netTaxed, netTaxed - netNo)
  }

  /**
   The three estates the insurance simulator prices: the assets as they are,
   the assets less the premium, and (when the claim is taxed) the assets less
   the premium plus the claim; the untaxed claim comes back in the net outside
   the estate.
   */
  lemma InsurancePricesThreeEstates(c: TaxConstants, assets: real, h: Household, premiumRatio: real, premium: real)
    ensures var r := SimulateInsurance(c, assets, h, premiumRatio, premium);
      && r.taxNoInsurance == CalculateEstateTax(c, assets, h).taxDue
      && r.taxNew == CalculateEstateTax(c, assets - premium, h).taxDue
      && r.taxEffective == CalculateEstateTax(c, assets - premium + r.claim, h).taxDue
      && r.netNotTaxed == RoundHalfEven(assets - premium - r.taxNew + r.claim)
      && r.netTaxed == RoundHalfEven(assets - premium + r.claim - r.taxEffective)
  {
  }

  /** Paying a non-negative premium out of the estate never raises the estate tax. */
  lemma PremiumNeverRaisesTax(assets: real, h: Household, premiumRatio: real, premium: real)
    requires premium >= 0.0
    ensures SimulateInsurance(Defaults, assets, h, premiumRatio, premium).taxNew
         <= SimulateInsurance(Defaults, assets, h, premiumRatio, premium).taxNoInsurance
  {
    TaxDueMonotoneInAssets(assets - premium, assets, h);
  }

  /** With no premium and whole-number assets, neither kind of insurance plan changes anything. */
  lemma NoPremiumNoEffect(assets: real, h: Household, premiumRatio: real)
    requires IsIntegral(assets)
    ensures SimulateInsurance(Defaults, assets, h, premiumRatio, 0.0).effectNotTaxed == 0.0
    ensures SimulateInsurance(Defaults, assets, h, premiumRatio, 0.0).effectTaxed == 0.0
  {
    var tax := TaxDue(assets, h);
    AssessWithMonotone(assets, Deductions(Defaults, h), assets, Deductions(Defaults, h));
    RoundIntegral(0.0);
    assert RoundHalfEven(0.0 * premiumRatio) == 0.0;
    IntegralDifference(assets, tax);
    RoundIntegral(assets - tax);
  }

  /** The three views of `simulate_gift_strategy`. */
  datatype GiftOutcome = GiftOutcome(
    taxOriginal: real,
    netOriginal: real,
    simulatedAssets: real,
    taxSim: real,
    totalGift: real,
    netAfter: real,
    effect: real)

  /** The tax-free gift allowance per year. */
  const AnnualGiftExemption: real := 244.0

  /**
   `simulate_gift_strategy`: give the annual allowance for `years` years,
   price the estate that is left (never below zero), and compare what the
   family receives with the unplanned estate.
   */
  function SimulateGift(c: TaxConstants, assets: real, h: Household, years: int): (r: GiftOutcome)
    ensures r.totalGift == years as real * 244.0
    ensures r.simulatedAssets >= 0.0 && r.simulatedAssets >= assets - r.totalGift
    ensures r.simulatedAssets == 0.0 || r.simulatedAssets == assets - r.totalGift
    ensures r.netOriginal == assets - r.taxOriginal
    ensures r.effect == r.netAfter - r.netOriginal
  {
    var totalGift := years as real * AnnualGiftExemption;
    var simulated := Max(assets - totalGift, 0.0);
    var taxSim := CalculateEstateTax(c, simulated, h).taxDue;
    var netAfter := RoundHalfEven(simulated - taxSim + totalGift);
    var taxOriginal := CalculateEstateTax(c, assets, h).taxDue;
    var netOriginal := assets - taxOriginal;
    GiftOutcome(taxOriginal, netOriginal, simulated, taxSim, totalGift, netAfter, netAfter - netOriginal)
  }

  /**
   Gifting for zero years changes nothing on whole-number assets, and on any
   non-negative assets the reported effect, truncated to a whole number, is zero.
   */
  lemma NoGiftNoEffect(assets: real, h: Household)
    requires assets >= 0.0
    ensures IsIntegral(assets) ==> SimulateGift(Defaults, assets, h, 0).effect == 0.0
    ensures Trunc(SimulateGift(Defaults, assets, h, 0).effect) == 0
  {
    var r := SimulateGift(Defaults, assets, h, 0);
    var tax := TaxDue(assets, h);
    assert r.simulatedAssets == assets && r.taxSim == tax && r.taxOriginal == tax;
    assert r.netAfter == RoundHalfEven(assets - tax);
    assert r.effect == RoundHalfEven(assets - tax) - (assets - tax);
    if IsIntegral(assets) {
      AssessWithMonotone(assets, Deductions(Defaults, h), assets, Deductions(Defaults, h));
      IntegralDifference(assets, tax);
      RoundIntegral(assets - tax);
    }
  }

  /** When the gifts fit in the estate, the estate left is the assets less the gifts, and the gifts come back as net. */
  lemma GiftFits(assets: real, h: Household, years: int)
    requires years as real * 244.0 <= assets
    ensures var r, g := SimulateGift(Defaults, assets, h, years), years as real * 244.0;
      && r.simulatedAssets == assets - g
      && r.taxSim == TaxDue(assets - g, h)
      && r.taxOriginal == TaxDue(assets, h)
      && r.effect == RoundHalfEven(assets - r.taxSim) - (assets - r.taxOriginal)
  {
    var r, g := SimulateGift(Defaults, assets, h, years), years as real * 244.0;
    assert r.simulatedAssets - r.taxSim + r.totalGift == assets - r.taxSim;
  }

  /**
   When the gifts fit in the estate, the effect on whole-number assets is
   exactly the estate tax saved, and it is never negative.
   */
  lemma GiftEffectIsTaxSaved(assets: real, h: Household, years: int)
    requires IsIntegral(assets) && 0 <= years
    requires years as real * 244.0 <= assets
    ensures SimulateGift(Defaults, assets, h, years).effect
         == SimulateGift(Defaults, assets, h, years).taxOriginal - SimulateGift(Defaults, assets, h, years).taxSim
    ensures SimulateGift(Defaults, assets, h, years).effect >= 0.0
  {
    var g := years as real * 244.0;
    var taxSim, taxOrig := TaxDue(assets - g, h), TaxDue(assets, h);
    GiftFits(assets, h, years);
    AssessWithMonotone(assets - g, Deductions(Defaults, h), assets, Deductions(Defaults, h));
    IntegralDifference(assets, taxSim);
    RoundIntegral(assets - taxSim);
  }

  /**
   Gifting never leaves the family worse off: for any non-negative number of
   years, on whole-number assets, with no negative dependant count, the effect
   is never negative, also when the gifts exceed the estate.
   */
  lemma GiftEffectNonNegative(assets: real, h: Household, years: int)
    requires IsIntegral(assets) && 0 <= years && CountsNonNegative(h)
    ensures SimulateGift(Defaults, assets, h, years).effect >= 0.0
  {
    var g := years as real * 244.0;
    if g <= assets {
      GiftEffectIsTaxSaved(assets, h, years);
    } else {
      var r := SimulateGift(Defaults, assets, h, years);
      DefaultDeductionsAtLeastFuneral(h);
      assert r.simulatedAssets == 0.0 && r.taxSim == 0.0;
      assert IsIntegral(g) by { assert g == (years * 244) as real; }
      RoundIntegral(g);
      AssessWithMonotone(assets, Deductions(Defaults, h), assets, Deductions(Defaults, h));
    }
  }

  /** The figures a user enters for the case comparison. */
  datatype CaseInputs = CaseInputs(assets: real, premium: real, claim: real, gift: real)

  datatype CaseStrategy = NoPlan | GiftEarly | BuyInsurance | GiftAndInsurance | GiftAndTaxedInsurance

  /** One row of the case table: the estate priced, its tax, and what the family receives. */
  datatype CaseRow = CaseRow(strategy: CaseStrategy, estate: real, tax: real, net: real)

  /** A strategy's row: price `estate` and add to what is left what reached the family outside it. */
  function CaseOf(c: TaxConstants, h: Household, s: CaseStrategy, estate: real, outside: real): CaseRow {
    var tax := CalculateEstateTax(c, estate, h).taxDue;
    CaseRow(s, estate, tax, estate - tax + outside)
  }

  /**
   The five strategies of the case page: no plan; giving `gift` early;
   buying insurance with `premium` for a claim of `claim` paid outside the
   estate; both; and both with the claim taxed as part of the estate.
   */
  function CaseTable(c: TaxConstants, h: Household, i: CaseInputs): (rows: seq<CaseRow>)
    ensures |rows| == 5
  {
    [ CaseOf(c, h, NoPlan, i.assets, 0.0),
      CaseOf(c, h, GiftEarly, i.assets - i.gift, i.gift),
      CaseOf(c, h, BuyInsurance, i.assets - i.premium, i.claim),
      CaseOf(c, h, GiftAndInsurance, i.assets - i.gift - i.premium, i.claim + i.gift),
      CaseOf(c, h, GiftAndTaxedInsurance, i.assets - i.gift - i.premium + i.claim, i.gift) ]
  }

  /** The displayed table: tax and family net truncated to whole numbers, and each net less the no-plan net. */
  datatype ShownRow = ShownRow(strategy: CaseStrategy, tax: int, net: int, benefit: int)

  function ShowCases(rows: seq<CaseRow>): (shown: seq<ShownRow>)
    requires |rows| > 0
    ensures |shown| == |rows|
    ensures forall k :: 0 <= k < |rows| ==>
      && shown[k].strategy == rows[k].strategy
      && shown[k].tax == Trunc(rows[k].tax)
      && shown[k].net == Trunc(rows[k].net)
      && shown[k].benefit == Trunc(rows[k].net) - Trunc(rows[0].net)
  {
    seq(|rows|, k requires 0 <= k < |rows| =>
      ShownRow(rows[k].strategy, Trunc(rows[k].tax), Trunc(rows[k].net), Trunc(rows[k].net) - Trunc(rows[0].net)))
  }

  /**
   The no-plan row is the baseline, with no benefit; an early gift changes
   what the family receives by exactly the estate tax it saves, which is never
   negative for a non-negative gift.
   */
  lemma CaseComparison(h: Household, i: CaseInputs)
    requires i.gift >= 0.0
    ensures var rows := CaseTable(Defaults, h, i);
      && rows[0].strategy == NoPlan && rows[0].net == i.assets - rows[0].tax
      && ShowCases(rows)[0].benefit == 0
      && rows[1].net - rows[0].net == rows[0].tax - rows[1].tax
      && rows[1].net >= rows[0].net
  {
    TaxDueMonotoneInAssets(i.assets - i.gift, i.assets, h);
  }

  /** The page's suggested inputs for the case comparison. */
  datatype CaseDefaults = CaseDefaults(premium: int, claim: int, gift: int)

  /**
   The suggestions: the premium is the tax due rounded up to a multiple of
   ten, but never more than the assets; the claim is one and a half times the
   premium, truncated; the gift is one year's allowance when what is left
   after the premium covers it, otherwise nothing.
   */
  function SuggestCase(taxDue: real, assets: int): (d: CaseDefaults)
    ensures d.premium <= assets
    ensures d.premium < assets ==> d.premium % 10 == 0 && taxDue <= d.premium as real < taxDue + 10.0
    ensures d.premium == assets ==> Ceil(taxDue / 10.0) * 10 >= assets
    ensures d.gift == 244 <==> assets - d.premium >= 244
    ensures d.gift == 0 <==> assets - d.premium < 244
    ensures d.premium >= 0 ==> d.claim as real <= d.premium as real * 1.5 < d.claim as real + 1.0
  {
    var rounded := Ceil(taxDue / 10.0) * 10;
    assert rounded % 10 == 0 && taxDue <= rounded as real < taxDue + 10.0;
    var premium := if rounded > assets then assets else rounded;
    CaseDefaults(premium, Trunc(premium as real * 1.5), if assets - premium >= 244 then 244 else 0)
  }

  /** The small estate's suggestions: a tax of 353 on 5,000 of assets suggests a premium of 360, a claim of 540 and a gift of 244. */
  lemma SuggestCaseExample()
    ensures SuggestCase(353.0, 5000) == CaseDefaults(360, 540, 244)
  {
    assert Ceil(353.0 / 10.0) == 36;
  }
}

=== FILE: numeric.dfy ===
/**
 Real-valued helpers shared by every tax module: the `max`/`min` the
 source applies to money amounts, and the three ways it turns a real into
 a whole number — `round(x, 0)` (round half to even), `int(x)` (truncation
 toward zero) and `math.ceil`.
 */
module Numeric {

  function Max(a: real, b: real): (r: real)
    ensures r >= a && r >= b
    ensures r == a || r == b
  {
    if a >= b then a else b
  }

  function Min(a: real, b: real): (r: real)
    ensures r <= a && r <= b
    ensures r == a || r == b
  {
    if a <= b then a else b
  }

  function Abs(x: real): (r: real)
    ensures r >= 0.0
    ensures r == x || r == -x
  {
    if x >= 0.0 then x else -x
  }

  /** A real with no fractional part. */
  predicate IsIntegral(x: real) {
    x == x.Floor as real
  }

  predicate IsEven(n: int) {
    n % 2 == 0
  }

  /** Python's `round(x, 0)`: nearest whole number, ties go to the even one. */
  function RoundHalfEven(x: real): (r: real)
    ensures IsIntegral(r)
    ensures Abs(r - x) < 0.5 || (Abs(r - x) == 0.5 && IsEven(r.Floor))
  {
    var f := x.Floor;
    var d := x - f as real;
    if d < 0.5 then f as real
    else if d > 0.5 then (f + 1) as real
    else if IsEven(f) then f as real
    else (f + 1) as real
  }

  /** Python's `int(x)` on a float: drop the fraction, toward zero. */
  function Trunc(x: real): (n: int)
    ensures 0.0 <= x ==> 0 <= n && n as real <= x < n as real + 1.0
    ensures x < 0.0 ==> n <= 0 && n as real - 1.0 < x <= n as real
  {
    if x >= 0.0 then x.Floor else -((-x).Floor)
  }

  /** Python's `math.ceil`: the least whole number not below x. */
  function Ceil(x: real): (n: int)
    ensures x <= n as real < x + 1.0
  {
    -((-x).Floor)
  }

  /** Rounding leaves a whole number where it is. */
  lemma RoundIntegral(x: real)
    requires IsIntegral(x)
    ensures RoundHalfEven(x) == x
  {
  }

  /** Rounding to nearest never reverses the order of two amounts. */
  lemma RoundMonotone(x: real, y: real)
    requires x <= y
    ensures RoundHalfEven(x) <= RoundHalfEven(y)
  {
    var rx, ry := RoundHalfEven(x), RoundHalfEven(y);
    if x < y {
      assert rx <= x + 0.5 && y - 0.5 <= ry;
      assert rx - ry < 1.0;
      assert rx.Floor - ry.Floor < 1;
    }
  }

  /** A whole number read as a real floors back to itself. */
  lemma FloorOfInt(k: int)
    ensures (k as real).Floor == k
  {
  }

  /** Sums and differences of whole numbers are whole numbers. */
  lemma IntegralDifference(a: real, b: real)
    requires IsIntegral(a) && IsIntegral(b)
    ensures IsIntegral(a - b) && IsIntegral(a + b)
  {
    var m, n := a.Floor, b.Floor;
    FloorOfInt(m - n);
    FloorOfInt(m + n);
    assert a - b == (m - n) as real;
    assert a + b == (m + n) as real;
  }

  lemma MulMonotone(a: real, b: real, k: real)
    requires a <= b && 0.0 <= k
    ensures a * k <= b * k
  {
    assert (b - a) * k >= 0.0;
  }

  lemma MulNonNegative(a: real, b: real)
    requires 0.0 <= a && 0.0 <= b
    ensures 0.0 <= a * b
  {
  }

  /** A fraction in [0, 1] of a non-negative amount lies between zero and the amount. */
  lemma ScaleDown(x: real, f: real)
    requires 0.0 <= x && 0.0 <= f <= 1.0
    ensures 0.0 <= x * f <= x
  {
    assert x - x * f == x * (1.0 - f);
  }

  /** Division by a non-zero amount distributes over a sum. */
  lemma DivAdd(a: real, b: real, d: real)
    requires d != 0.0
    ensures a / d + b / d == (a + b) / d
  {
  }

  /** Multiplication distributes over a sum. */
  lemma MulAdd(k: real, a: real, b: real)
    ensures k * a + k * b == k * (a + b)
  {
  }

  /** The smaller of a fraction of `x` and a non-negative room lies between zero and `x`. */
  lemma CappedShare(x: real, f: real, room: real)
    requires 0.0 <= x && 0.0 <= f <= 1.0 && 0.0 <= room
    ensures 0.0 <= Min(x * f, room) <= x
  {
    ScaleDown(x, f);
  }

  /**
   Paying out fractions `c` and `k` of a non-negative base and keeping the
   rest (floored at zero) accounts for the whole base when `c + k <= 1`.
   */
  lemma PayoutConserves(d: real, c: real, k: real)
    requires 0.0 <= d && 0.0 <= c && 0.0 <= k && c + k <= 1.0
    ensures d == d * c + d * k + Max(0.0, d - d * c - d * k)
  {
    ScaleDown(d, c + k);
    assert d * (c + k) == d * c + d * k;
  }
}

=== FILE: wrappers.dfy ===
/** The optional result of an operation the source can fail in. */
module Wrappers {

  datatype Option<+T> = None | Some(value: T)
}
